=== FILE: README.md ===
# PillSleepTracker core in Dafny

This project models the data core of PillSleepTracker, a desktop tracker for medications and sleep. The core is the `DataManager` record store and its analytics:

- the medication registry, with its active filter, add, update, delete and lookup;
- the dose log, with take, undo and "taken on date";
- the sleep log, an upsert keyed by date with a window over recent days;
- the daily adherence ratio;
- the pill and sleep streaks;
- the sleep score.

The model also covers four small pieces of logic that live in the page classes:

- the sleep form's duration rule;
- the import check, with its legacy-key remapping;
- the low-stock predicate;
- the date order of the CSV export.

The model is functional. A store is an immutable `Store` of three sequences. Every operation is a pure function from the old store to the new one. The wall clock, generated UUIDs and time strings are parameters: `today` and `now`, `freshId` and `freshIds`, and `time`. A calendar date is an integer day number, so "yesterday" is `today - 1`.

Module layout:

- `Wrappers`: `Option` and `Result`.
- `Seqs`: filter, count, first/last index and remove-at, the generic pieces behind the program's list comprehensions and scans.
- `Records`: the medication, patch, dose, sleep-entry and store datatypes.
- `Registry`, `DoseLog` and `SleepLog`: the three collections.
- `Score`: the sleep score.
- `Analytics`: adherence and streaks.
- `Persistence`: load, export, import and the CSV order.
- `SleepForm`: the "Log Sleep" handler.
- `Scenarios`: worked examples on concrete data.

An eight-hour night of quality 5 with no bedtime history scores 40 + 40 + 10 = 90 (`Score.IdealNightWithoutHistory`).

Proving the contracts also showed three things about the code. None of them is treated as a defect:

- The `min(100, …)` in the score's final clamp can never take effect. The three terms are at most 40, 40 and 20, and `SleepScore` proves that the score is the plain floor of their sum whenever the quality is non-negative.
- The sleep form's `dur <= 0` guard is dead code. `SleepDuration` proves every duration lies in [1, 1440].
- Undoing a dose that was taken at supply 0 leaves the supply at 1. Taking the dose did not decrement it, but undoing it increments it. `DoseLog.TakeUndoFromEmptySupply` states this.

## Model

| member | source | states |
|---|---|---|
| Registry.ActiveMeds | PillSleepTracker.py:130-131 | exactly the medications whose `active` is missing or true, in registry order |
| Registry.FindMed | PillSleepTracker.py:139-140 | the position of the first record with the id; absent exactly when no record has it |
| Registry.GetMed | PillSleepTracker.py:144-147 | the first stored record with the id (no earlier record has it), or nothing exactly when no record has it |
| Registry.AddMed | PillSleepTracker.py:135-137 | appends one record; `id`, `created` and `active` are filled only when the caller left them out; the new record is active unless the caller said `active=false`; every other field is the caller's |
| Registry.UpdateMed | PillSleepTracker.py:138-141 | merges the patch into the first record with the id only; every other record is unchanged; the registry is unchanged when no record has the id |
| Registry.DeleteMed | PillSleepTracker.py:142-143 | removes every record with the id and keeps every other one, in order |
| Registry.LowStockAlerts | PillSleepTracker.py:434 | exactly the active medications with a tracked supply at or below their warning level (7 when none is set), in the order and with the multiplicity of the active list |
| Registry.Merge | PillSleepTracker.py:140 | definition of line 140's `m.update(upd)`; what it means for callers is proved by Registry.MergeEmptyPatch, Registry.MergeIdempotent and Registry.UpdateThenGet |
| Registry.MergeEmptyPatch | PillSleepTracker.py:140 | an update with no keys changes nothing |
| Registry.MergeIdempotent | PillSleepTracker.py:140 | applying the same update twice equals applying it once |
| Registry.UpdateThenGet | PillSleepTracker.py:138-147 | after an update that does not change the id, lookup returns the merged record |
| Registry.DeleteThenGet | PillSleepTracker.py:142-147 | after deleting an id, lookup finds nothing |
| Registry.AddThenGet | PillSleepTracker.py:135-147 | a record added without an id is found under the fresh id, provided that id is not already in use |
| DoseLog.TakenOnDate | PillSleepTracker.py:170-171 | taken on a day exactly when the log holds at least one "taken" entry for that medication and day |
| DoseLog.TakeFromSupply | PillSleepTracker.py:152-153 | supply decreases by one only when it is tracked and positive; it never goes below zero; no other field changes |
| DoseLog.ReturnToSupply | PillSleepTracker.py:162-163 | a tracked supply increases by one; an untracked one stays untracked; no other field changes |
| DoseLog.LastMatch | PillSleepTracker.py:158-160 | the newest "taken" entry for the medication and date; absent exactly when it was not taken that day |
| DoseLog.LogTaken | PillSleepTracker.py:149-154 | appends one "taken" entry for today, after which the medication counts as taken today; only the first record with the id can change, and only its supply |
| DoseLog.UndoTaken | PillSleepTracker.py:156-165 | a no-op when nothing matches; otherwise removes exactly the newest matching entry, keeps all others in order, and returns one dose when supply is tracked |
| DoseLog.TakeUndoRoundTrip | PillSleepTracker.py:149-165 | take followed by undo for today restores the whole store when supply was untracked or positive |
| DoseLog.SupplyRoundTrip | PillSleepTracker.py:152-163 | proof helper: after a dose is taken from a record with untracked or positive supply, undo finds the same record and returning the dose restores it |
| DoseLog.TakeUndoFromEmptySupply | PillSleepTracker.py:149-165 | from supply 0, take then undo restores the log but leaves supply 1 |
| DoseLog.DoubleTakeNeedsTwoUndos | PillSleepTracker.py:156-164 | after two takes on a day not yet taken, one undo still leaves the medication taken and a second undo clears it |
| DoseLog.TakingKeepsLowStock | PillSleepTracker.py:149-154 | taking a dose never clears a low-stock alert |
| SleepLog.GetSleep | PillSleepTracker.py:185-188 | the first stored entry for that date (no earlier entry has it), or nothing exactly when no entry has that date |
| SleepLog.LogSleep | PillSleepTracker.py:181-184 | the new entry, stamped with `logged_at` unless it had one, is placed last; no other entry has its date; entries of other dates all survive in their original order |
| SleepLog.SleepForRange | PillSleepTracker.py:189-193 | exactly `days` pairs, oldest first, ending today, each pairing a day with its lookup |
| SleepLog.SleepDuration | PillSleepTracker.py:634 | a duration in [1, 1440] that brings the bedtime round the clock to the wake time |
| SleepLog.DurationIsLeast | PillSleepTracker.py:634 | no shorter positive duration reaches the wake time, so the rule computes the least one |
| SleepLog.GetSleepAppend | PillSleepTracker.py:185-188 | appending an entry changes lookup only for a date not yet present |
| SleepLog.GetSleepWithoutDate | PillSleepTracker.py:183-188 | removing one date's entries leaves lookup of every other date unchanged |
| SleepLog.LogSleepThenGet | PillSleepTracker.py:181-188 | after an upsert, lookup of its date returns the stamped entry |
| SleepLog.LogSleepKeepsOtherDays | PillSleepTracker.py:181-188 | an upsert does not change lookup of any other date |
| SleepLog.LogSleepKeepsDatesUnique | PillSleepTracker.py:181-184 | upserting keeps at most one entry per date |
| SleepLog.FilterKeepsDatesUnique | PillSleepTracker.py:183 | dropping entries keeps dates unique |
| Score.Split | PillSleepTracker.py:223 | colon-free pieces, at least one, that rejoin to the input |
| Score.SplitTwo | PillSleepTracker.py:223 | `a:b` with colon-free parts splits into exactly `[a, b]` |
| Score.SplitNoColon | PillSleepTracker.py:223 | a colon-free string splits into itself alone |
| Score.Pad2Value | PillSleepTracker.py:639 | the two zero-padded digits of a number read back as that number |
| Score.ParseClock | PillSleepTracker.py:223 | nothing for a missing bedtime or one without a colon; a value only for exactly two colon-free pieces that both read as integers, and then hours times 60 plus minutes |
| Score.ParseClockOfParts | PillSleepTracker.py:223 | two colon-free pieces joined by a colon parse exactly when both pieces are integers |
| Score.ClockRoundTrip | PillSleepTracker.py:223 | a bedtime written by the sleep form parses back to its minute of the day |
| Score.ParsedBedtimes | PillSleepTracker.py:220-226 | one value per bedtime that parses, in order: the `k`-th is the `k`-th parsing bedtime's minutes after the noon wrap; the others, missing ones included, are skipped |
| Score.WrappedClockRange | PillSleepTracker.py:224 | after the noon wrap, every clock time lies in (-720, 720] |
| Score.Variance | PillSleepTracker.py:228 | the population variance is never negative |
| Score.ConsistencyTerm | PillSleepTracker.py:218-229 | in [0, 20]; exactly 10 unless at least three bedtimes parse; otherwise 20 - sd/6, floored at 0 |
| Score.QualityTerm | PillSleepTracker.py:217 | at most 40; between 8 and 40 for the form's ratings 1 to 5 |
| Score.QualityTermStep | PillSleepTracker.py:217 | a rating of 0 is worth 0 points, each step up to 5 adds exactly 8, and every rating from 5 up is worth the full 40 |
| Score.ClampToScore | PillSleepTracker.py:230 | an integer in [0, 100]: 0 for a negative total, 100 for a total of 100 or more, and the floor of a total in between |
| Score.SleepScore | PillSleepTracker.py:214-230 | always an integer in [0, 100]; for non-negative quality, the floor of the three terms' sum, without clamping |
| Score.IdealNightWithoutHistory | PillSleepTracker.py:214-230 | a full duration term with quality 5 and no history scores 90 |
| Score.ScoreMonotoneInQuality | PillSleepTracker.py:217 | a higher quality rating never lowers the score |
| Score.SameBedtimeFullConsistency | PillSleepTracker.py:227-229 | identical bedtimes give zero variance and the full consistency term of 20 |
| Score.ConstantSampleHasNoVariance | PillSleepTracker.py:228 | a sample of identical values has variance zero |
| Score.MeanOfConstant | PillSleepTracker.py:228 | the mean of identical values is that value |
| Analytics.ActiveIds | PillSleepTracker.py:174 | exactly the ids of the active medications |
| Analytics.TakenIds | PillSleepTracker.py:177 | an id is in the set exactly when it is an active id taken that day |
| Analytics.TakenIdsExtremes | PillSleepTracker.py:177 | none taken means the empty set; all taken means the whole set; both in both directions |
| Analytics.DayRatio | PillSleepTracker.py:174-178 | in [0, 1]; 0 without active medications; otherwise the number of active ids taken that day over the number of active ids; 1 exactly when every active medication was taken; 0 exactly when none was |
| Analytics.ActiveIdsOfSameKeys | PillSleepTracker.py:174 | proof helper: registries that agree on every record's `id` and `active` have the same active ids |
| Analytics.LogTakenKeepsActiveIds | PillSleepTracker.py:149-154 | logging a dose never changes the set of active ids |
| Analytics.LogTakenTakenOnDate | PillSleepTracker.py:149-171 | after logging a dose, a medication is taken on a day exactly when it was before or the new entry is for it and that day |
| Analytics.LogTakenTakenIds | PillSleepTracker.py:149-177 | logging a dose adds its medication, when active, to that day's taken set and leaves every other day's set alone |
| Analytics.FractionStep | PillSleepTracker.py:178 | proof helper: one more over the same positive count adds one share |
| Analytics.LogTakenKeepsOtherRatio | PillSleepTracker.py:149-178 | logging a dose for today leaves every other day's ratio unchanged |
| Analytics.LogTakenAddsToday | PillSleepTracker.py:149-177 | taking an active medication not yet taken today keeps the active ids and adds exactly that id to today's taken set |
| Analytics.LogTakenRaisesRatio | PillSleepTracker.py:149-178 | taking an active medication not yet taken today raises today's ratio by exactly one over the number of active ids |
| Analytics.AdherenceForRange | PillSleepTracker.py:173-179 | exactly `days` pairs, oldest first, ending today, each day with its ratio in [0, 1] |
| Analytics.AdherenceWithoutMedications | PillSleepTracker.py:174 | with no active medications every ratio is 0, with no division fault |
| Analytics.Run | PillSleepTracker.py:199-203 | the length of the unbroken run of good days from a starting day |
| Analytics.StreakOf | PillSleepTracker.py:198-204 | counts good days walking back; a bad day 0 is skipped; the first later bad day, or the horizon, ends the count |
| Analytics.CountStreak | PillSleepTracker.py:198-204 | the loop with its skip-today `continue` and `break` computes the streak rule |
| Analytics.PillDays | PillSleepTracker.py:199-201 | definition of the per-day test of lines 199-201 over 365 days; what the walk over these flags yields is proved by Analytics.PillStreak |
| Analytics.SleepDays | PillSleepTracker.py:207-209 | definition of the per-night test of lines 207-209 over 365 days; what the walk over these flags yields is proved by Analytics.SleepStreak |
| Analytics.PillStreak | PillSleepTracker.py:195-204 | 0 without active medications; at most 365; otherwise the length of the complete-day run ending today, or yesterday when today is incomplete |
| Analytics.SleepStreak | PillSleepTracker.py:205-212 | at most 365; the length of the logged-night run ending today, or yesterday when today has no entry |
| Analytics.PillStreakBoundWhenTodayIncomplete | PillSleepTracker.py:199-203 | an incomplete today keeps the streak below 365 |
| Analytics.PillStreakOfCompleteRun | PillSleepTracker.py:195-204 | `n` complete days ending today, preceded by an incomplete day, give a streak of exactly `n` |
| Persistence.Backfill | PillSleepTracker.py:109 | definition of line 109's `setdefault(k, [])`; its effect is proved by Persistence.LoadExportRoundTrip and stated by Persistence.ImportData |
| Persistence.LoadData | PillSleepTracker.py:108-117 | definition of start-up loading; what it yields is proved by Persistence.LoadMissingFile and Persistence.LoadExportRoundTrip |
| Persistence.LoadMissingFile | PillSleepTracker.py:108-117 | a missing or unreadable file starts the tracker with empty data |
| Persistence.ExportData | PillSleepTracker.py:793 | the export holds all three collections and no legacy key |
| Persistence.LoadExportRoundTrip | PillSleepTracker.py:108-109 | loading an exported document gives back the same store |
| Persistence.IsTrackerData | PillSleepTracker.py:806 | a document passes the import check unless every recognised key except `pill_log` is missing |
| Persistence.AssignIds | PillSleepTracker.py:809 | every legacy medication ends up with an id; one that had an id is unchanged; the others get the fresh id and nothing else |
| Persistence.Upgrade | PillSleepTracker.py:812 | definition of line 812's two `setdefault` calls; what they do is proved by Persistence.UpgradeKeepsCurrentEntry and Persistence.UpgradeNamesFromPillName |
| Persistence.UpgradeKeepsCurrentEntry | PillSleepTracker.py:812 | an entry that already has `med_id` and `med_name` comes through unchanged, whatever its `pill_name` |
| Persistence.UpgradeNamesFromPillName | PillSleepTracker.py:812 | an entry with neither `med_id` nor `med_name` gets `pill_name`, or "" without one, as both; date, time and action are kept |
| Persistence.NormaliseImport | PillSleepTracker.py:806-814 | refused exactly when none of the four recognised keys is present; `pills` and `pill_log` are renamed only when the new key is absent; afterwards all three collections are present, and one with neither its new nor its legacy key is empty |
| Persistence.ImportData | PillSleepTracker.py:806-816 | refused exactly when the import check fails; otherwise each collection is the document's own, else the renamed legacy one (medications given ids, dose entries upgraded), else empty, so a sleep-only import wipes medications and doses |
| Persistence.ImportExportRoundTrip | PillSleepTracker.py:806-814 | importing an exported document restores the same store |
| Persistence.PillLogAloneIsRefused | PillSleepTracker.py:806 | a document holding only a legacy `pill_log` is refused |
| Persistence.InsertByDate | PillSleepTracker.py:799 | proof helper of the sort: the entry is added to the log and nothing else changes |
| Persistence.InsertKeepsSorted | PillSleepTracker.py:799 | proof helper of the sort: insertion into a date-ordered log keeps it date-ordered |
| Persistence.SortByDate | PillSleepTracker.py:799 | a permutation of the log in date order |
| Persistence.InsertOnDate | PillSleepTracker.py:799 | proof helper of the sort: an inserted entry goes in front of the entries of its own date |
| Persistence.SortIsStable | PillSleepTracker.py:799 | entries of one date keep their relative order through the sort |
| Persistence.Row | PillSleepTracker.py:799 | definition of one CSV row; which rows the export holds and in what order is proved by Persistence.RowsOfPermutation and Persistence.CsvRows |
| Persistence.RowsOfPermutation | PillSleepTracker.py:799 | proof helper: rows of a permutation of the log are exactly the rows of its entries |
| Persistence.CsvRows | PillSleepTracker.py:798-799 | one row per dose-log entry: every entry has its row and every row comes from an entry, taken in the stable date order of the sort |
| SleepForm.BedtimesOf | PillSleepTracker.py:637 | the bedtimes of exactly the logged days of the window, in window order |
| SleepForm.RecentBedtimes | PillSleepTracker.py:637 | at most seven bedtimes, one per logged day of the last week |
| SleepForm.RecordSleep | PillSleepTracker.py:632-640 | refused exactly when the wrapped duration exceeds 18 hours; otherwise medications and doses are unchanged, the sleep log is the upsert of the new night (so it is placed last), every other date looks up as before, dates stay unique, and lookup of the date returns the night with its duration, zero-padded times, quality, factors, notes, the sleep score over the last week's bedtimes and a `logged_at` stamp |
| Scenarios.VitaminDTakenAndUndone | PillSleepTracker.py:149-178 | taking the only medication uses one of ten doses and completes the day with ratio 1; undo restores the store |
| Scenarios.EightHourNight | PillSleepTracker.py:633-640 | 23:00 to 07:00 is logged as 480 minutes with bedtime "23:00" |
| Scenarios.NineteenHoursRefused | PillSleepTracker.py:634-635 | 08:00 to 03:00 is 1140 minutes and is refused |

## Left out

- Package bootstrap, the widgets and pages, charts, toasts, the tray-icon thread, window geometry and settings: none of these is data logic.
- File reading and writing, including the temporary-file write-then-rename and the CSV file itself. A load arrives as the parsed document or as nothing. Saving after each operation is not modelled: each operation returns the new store. Loading is modelled as giving either the parsed document or the default; in the program only a JSON syntax error or an I/O error falls back to the default, while a file that is not valid UTF-8 (`UnicodeDecodeError`) or whose top level is not a JSON object (`AttributeError` at the backfill) makes start-up fail instead.
- `datetime.now()`, `uuid4()` and date-string formatting: these are parameters, and dates are day numbers. `timedelta` arithmetic is subtraction on day numbers.
- Extra top-level keys of a data document: a `Store` holds only the three collections. A `Document` keeps only the five recognised keys, so other keys of an imported file are not carried along.
- A data document that is not a JSON object: the model's `Document` is always a parsed object. In the program, a JSON array or string makes the key check at line 806 a membership or substring test. Such a document without any of the four key names is refused as not tracker data. One that contains, say, the string `"sleep_log"` passes the check, replaces the in-memory data at line 813, and only then makes `setdefault` at line 814 raise, so the replaced data stays in memory and the next save writes it.
- Registry.ActiveMeds: an `Option` field cannot tell a missing key from a key holding JSON `null`. For `"active": null` the program's `m.get("active", True)` gives `None`, which is falsy, so the medication is inactive; the model counts it as active. Non-boolean `active` values are not modelled either.
- Registry.LowStockAlerts: for `"supply_warn": null` the program's comparison at line 434 raises `TypeError`; the model uses the default of 7.
- Registry.AddMed: `setdefault` keeps an `id`, `created` or `active` key that holds `null`; the model fills such a field in as if the key were missing.
- Persistence.AssignIds: a legacy medication whose `id` key holds `null` keeps it in the program; the model gives it the fresh id.
- Persistence.Upgrade: a legacy entry whose `med_id` or `med_name` key holds `null` keeps it in the program; the model fills in the `pill_name` default.
- Analytics.ActiveIds: a medication whose `id` holds JSON `null` puts `None` into the program's id set at line 174 (and line 196). Nothing is logged under that id, so in the program such a medication caps every day's ratio below 1 and keeps the pill streak at 0. The model reads a `null` id as a missing one and leaves the record out of the set.
- Persistence.IsTrackerData: a recognised key holding JSON `null` passes the program's `k in imp` test at line 806; the model reads it as a missing key, so `{"sleep_log": null}` is refused here but imported by the program.
- Persistence.NormaliseImport: a `medications` or `med_log` key holding `null` stops the rename at lines 807 and 810 in the program, which then keeps the `null`; the model reads it as missing and renames `pills` or `pill_log`.
- Persistence.ImportData: `setdefault` at line 814 keeps a collection key that holds `null`, so the program imports a `null` collection, which makes later operations on it fail; the model reads it as missing and gives the empty list or the renamed legacy list.
- Persistence.Backfill: `setdefault` at line 109 keeps a collection key that holds `null` in a loaded file; the model gives an empty collection. The same applies to Persistence.LoadData.
- Registry.FindMed: a stored record without an `id` makes the program raise `KeyError` at every id comparison (`get_med`, `update_med`, `delete_med`, and the id set of `adherence_for_range` and `pill_streak`); the model treats such a record as matching no id, which applies equally to Registry.GetMed, Registry.UpdateMed, Registry.DeleteMed and Analytics.ActiveIds.
- Score.SleepScore: the duration term `40 * exp(...)` is a parameter in [0, 40], and the standard deviation is a parameter whose square is the variance. Floating-point rounding of the real arithmetic is not modelled.
- Score.SleepScore: for a negative quality the contract states only the [0, 100] bound. The sleep form's slider never produces one.
- Score.ParseClock: Python's `int()` also accepts surrounding whitespace, `_` between digits and non-ASCII digits. The model reads these as parse failures, so such a stored bedtime would be skipped here but counted by the program.
- Analytics.DayRatio: the ratio is an exact `real`, where the program uses a float.
- Persistence.CsvRows: the header row and the date/time text formatting of each row are not modelled. The model's rows are ordered by day number, which agrees with the program's string sort for zero-padded ISO dates.
- The `_quick` buttons of the sleep page: a fixed-quality shortcut outside this core.
- The analytics page's float averages: floating-point display values outside this core.
- `taken_today`, and the dashboard counts built on it, are `DoseLog.TakenOnDate` at `today`.

=== FILE: analytics.dfy ===
/** Derived metrics: the daily adherence ratio over a window of days, and
    the pill and sleep streaks. */
module Analytics {
  import opened Wrappers
  import opened Seqs
  import opened Records
  import opened Registry
  import opened DoseLog
  import opened SleepLog

  /** How many days a streak walk looks back, today included. */
  const HorizonDays: nat := 365

  /** `{m["id"] for m in self.meds}`: identifiers of the active
      medications, duplicates collapsed. */
  function ActiveIds(meds: seq<Medication>): (r: set<Id>)
    ensures forall i :: 0 <= i < |meds| && IsActive(meds[i]) && meds[i].id.Some? ==> meds[i].id.value in r
    ensures forall mid :: mid in r ==> exists i :: 0 <= i < |meds| && IsActive(meds[i]) && HasId(meds[i], mid)
  {
    set m | m in meds && IsActive(m) && m.id.Some? :: m.id.value
  }

  /** Every active medication was taken on day `d`. */
  predicate AllTakenOn(s: Store, d: Day) {
    forall mid :: mid in ActiveIds(s.meds) ==> TakenOnDate(s.log, mid, d)
  }

  /** The active identifiers taken on day `d`. */
  function TakenIds(s: Store, d: Day): (r: set<Id>)
    ensures r <= ActiveIds(s.meds)
    ensures forall mid :: mid in r <==> mid in ActiveIds(s.meds) && TakenOnDate(s.log, mid, d)
  {
    set mid | mid in ActiveIds(s.meds) && TakenOnDate(s.log, mid, d)
  }

  /** No active medication taken means an empty set; all of them taken
      means the whole set. */
  lemma TakenIdsExtremes(s: Store, d: Day)
    ensures TakenIds(s, d) == {} <==> forall mid :: mid in ActiveIds(s.meds) ==> !TakenOnDate(s.log, mid, d)
    ensures TakenIds(s, d) == ActiveIds(s.meds) <==> AllTakenOn(s, d)
  {
    var ids, taken := ActiveIds(s.meds), TakenIds(s, d);
    if forall mid :: mid in ids ==> !TakenOnDate(s.log, mid, d) {
      assert taken == {};
    } else {
      var mid :| mid in ids && TakenOnDate(s.log, mid, d);
      assert mid in taken;
    }
    if AllTakenOn(s, d) {
      assert taken == ids;
    } else {
      var mid :| mid in ids && !TakenOnDate(s.log, mid, d);
      assert mid !in taken;
    }
  }

  /** One day's adherence: taken active medications over active
      medications, with the divisor forced to 1 when there are none. */
  function DayRatio(s: Store, d: Day): (r: real)
    ensures 0.0 <= r <= 1.0
    ensures ActiveIds(s.meds) == {} ==> r == 0.0
    ensures ActiveIds(s.meds) != {} ==> (r == 1.0 <==> AllTakenOn(s, d))
    ensures r == 0.0 <==> forall mid :: mid in ActiveIds(s.meds) ==> !TakenOnDate(s.log, mid, d)
    ensures ActiveIds(s.meds) != {} ==> r * (|ActiveIds(s.meds)| as real) == |TakenIds(s, d)| as real
  {
    var ids := ActiveIds(s.meds);
    var taken := TakenIds(s, d);
    SubsetCardinality(taken, ids);
    TakenIdsExtremes(s, d);
    var total := if |ids| == 0 then 1 else |ids|;
    (|taken| as real) / (total as real)
  }

  /** Two registries that agree, record by record, on `id` and `active`
      have the same active identifiers. */
  lemma ActiveIdsOfSameKeys(a: seq<Medication>, b: seq<Medication>)
    requires |a| == |b|
    requires forall j :: 0 <= j < |a| ==> a[j].id == b[j].id && a[j].active == b[j].active
    ensures ActiveIds(a) == ActiveIds(b)
  {
    forall mid | mid in ActiveIds(a)
      ensures mid in ActiveIds(b)
    {
      var j :| 0 <= j < |a| && IsActive(a[j]) && HasId(a[j], mid);
      assert IsActive(b[j]) && b[j].id.Some?;
    }
    forall mid | mid in ActiveIds(b)
      ensures mid in ActiveIds(a)
    {
      var j :| 0 <= j < |b| && IsActive(b[j]) && HasId(b[j], mid);
      assert IsActive(a[j]) && a[j].id.Some?;
    }
  }

  /** Logging a dose leaves the active identifiers as they were: it can
      change only a supply. */
  lemma LogTakenKeepsActiveIds(s: Store, mid: Id, name: string, today: Day, time: string)
    ensures ActiveIds(LogTaken(s, mid, name, today, time).meds) == ActiveIds(s.meds)
  {
    var t := LogTaken(s, mid, name, today, time);
    forall j | 0 <= j < |s.meds|
      ensures t.meds[j].id == s.meds[j].id && t.meds[j].active == s.meds[j].active
    {
      if Some(j) == FindMed(s.meds, mid) {
        assert t.meds[j].(supply := s.meds[j].supply) == s.meds[j];
      }
    }
    ActiveIdsOfSameKeys(t.meds, s.meds);
  }

  /** After logging a dose, a medication counts as taken on a day exactly
      when it already did or the new entry is for it and that day. */
  lemma LogTakenTakenOnDate(s: Store, mid: Id, name: string, today: Day, time: string, x: Id, d: Day)
    ensures TakenOnDate(LogTaken(s, mid, name, today, time).log, x, d) <==>
      TakenOnDate(s.log, x, d) || (x == mid && d == today)
  {
    var t := LogTaken(s, mid, name, today, time);
    if TakenOnDate(s.log, x, d) {
      var i :| 0 <= i < |s.log| && Matches(s.log[i], x, d);
      assert t.log[i] == t.log[..|s.log|][i];
    }
    if TakenOnDate(t.log, x, d) && !(x == mid && d == today) {
      var i :| 0 <= i < |t.log| && Matches(t.log[i], x, d);
      assert i < |s.log| && t.log[i] == t.log[..|s.log|][i];
    }
  }

  /** Logging a dose adds its medication, when active, to the taken set of
      its day and leaves every other day's taken set alone. */
  lemma LogTakenTakenIds(s: Store, mid: Id, name: string, today: Day, time: string, d: Day)
    ensures var t := LogTaken(s, mid, name, today, time);
      TakenIds(t, d) == if d == today && mid in ActiveIds(s.meds) then TakenIds(s, d) + {mid} else TakenIds(s, d)
  {
    var t := LogTaken(s, mid, name, today, time);
    LogTakenKeepsActiveIds(s, mid, name, today, time);
    forall x | x in ActiveIds(s.meds)
      ensures x in TakenIds(t, d) <==> x in TakenIds(s, d) || (x == mid && d == today)
    {
      LogTakenTakenOnDate(s, mid, name, today, time, x, d);
    }
  }

  /** One more over the same positive count adds one share. */
  lemma FractionStep(k: nat, n: nat)
    requires n > 0
    ensures (k + 1) as real / (n as real) == (k as real) / (n as real) + 1.0 / (n as real)
  {
  }

  /** Logging a dose for today leaves the ratio of every other day alone. */
  lemma LogTakenKeepsOtherRatio(s: Store, mid: Id, name: string, today: Day, time: string, d: Day)
    requires d != today
    ensures DayRatio(LogTaken(s, mid, name, today, time), d) == DayRatio(s, d)
  {
    LogTakenKeepsActiveIds(s, mid, name, today, time);
    LogTakenTakenIds(s, mid, name, today, time, d);
  }

  /** Taking an active medication not yet taken today adds exactly that
      medication to today's taken set. */
  lemma LogTakenAddsToday(s: Store, mid: Id, name: string, today: Day, time: string)
    requires mid in ActiveIds(s.meds) && !TakenOnDate(s.log, mid, today)
    ensures ActiveIds(LogTaken(s, mid, name, today, time).meds) == ActiveIds(s.meds)
    ensures TakenIds(LogTaken(s, mid, name, today, time), today) == TakenIds(s, today) + {mid}
    ensures |TakenIds(LogTaken(s, mid, name, today, time), today)| == |TakenIds(s, today)| + 1
  {
    LogTakenKeepsActiveIds(s, mid, name, today, time);
    LogTakenTakenIds(s, mid, name, today, time, today);
    assert mid !in TakenIds(s, today);
  }

  /** Taking an active medication not yet taken today raises today's ratio
      by exactly one over the number of active medications. */
  lemma LogTakenRaisesRatio(s: Store, mid: Id, name: string, today: Day, time: string)
    requires mid in ActiveIds(s.meds) && !TakenOnDate(s.log, mid, today)
    ensures DayRatio(LogTaken(s, mid, name, today, time), today) == DayRatio(s, today) + 1.0 / (|ActiveIds(s.meds)| as real)
  {
    LogTakenAddsToday(s, mid, name, today, time);
    FractionStep(|TakenIds(s, today)|, |ActiveIds(s.meds)|);
  }

  /** `adherence_for_range`: one `(day, ratio)` pair for each of the last
      `days` days, oldest first, ending with `today`. */
  function AdherenceForRange(s: Store, today: Day, days: int): (r: seq<(Day, real)>)
    ensures |r| == if days > 0 then days else 0
    ensures forall k :: 0 <= k < |r| ==> r[k].0 == today - (|r| - 1 - k)
    ensures forall k :: 0 <= k < |r| ==> r[k].1 == DayRatio(s, r[k].0) && 0.0 <= r[k].1 <= 1.0
    decreases days
  {
    if days <= 0 then []
    else AdherenceForRange(s, today - 1, days - 1) + [(today, DayRatio(s, today))]
  }

  /** With no active medications, every day of the window reads 0. */
  lemma AdherenceWithoutMedications(s: Store, today: Day, days: int, k: nat)
    requires ActiveIds(s.meds) == {}
    requires k < |AdherenceForRange(s, today, days)|
    ensures AdherenceForRange(s, today, days)[k].1 == 0.0
  {
  }

  /** How many leading days the walk skips: one when today is incomplete. */
  function SkipToday(flags: seq<bool>): nat {
    if |flags| > 0 && !flags[0] then 1 else 0
  }

  /** Number of consecutive `true` flags starting at `from`. */
  function Run(flags: seq<bool>, from: nat): (r: nat)
    requires from <= |flags|
    ensures from + r <= |flags|
    ensures forall j :: from <= j < from + r ==> flags[j]
    ensures from + r == |flags| || !flags[from + r]
    decreases |flags| - from
  {
    if from == |flags| || !flags[from] then 0 else 1 + Run(flags, from + 1)
  }

  /** The streak rule over per-day flags (`flags[i]` is day `today - i`):
      count consecutive good days walking back, where a bad today is
      skipped but any earlier bad day stops the count. */
  function StreakOf(flags: seq<bool>): (r: nat)
    ensures SkipToday(flags) + r <= |flags|
    ensures forall j :: SkipToday(flags) <= j < SkipToday(flags) + r ==> flags[j]
    ensures SkipToday(flags) + r == |flags| || !flags[SkipToday(flags) + r]
  {
    Run(flags, SkipToday(flags))
  }

  /** The backward walk of `pill_streak` and `sleep_streak`, step by step:
      count a good day, skip a bad day 0, stop at any later bad day. */
  method CountStreak(flags: seq<bool>) returns (streak: nat)
    ensures streak == StreakOf(flags)
  {
    streak := 0;
    var i := 0;
    while i < |flags|
      invariant 0 <= i <= |flags|
      invariant i == 0 ==> streak == 0
      invariant i > 0 ==> SkipToday(flags) + streak == i
      invariant forall j :: SkipToday(flags) <= j < i ==> flags[j]
    {
      if flags[i] {
        streak := streak + 1;
      } else if i == 0 {
        i := i + 1;
        continue;
      } else {
        break;
      }
      i := i + 1;
    }
  }

  /** Whether each of the last `HorizonDays` days, today first, had every
      active medication taken; `PillStreak` states what the walk over these
      flags yields. */
  function PillDays(s: Store, today: Day): seq<bool> {
    seq(HorizonDays, i => AllTakenOn(s, today - i))
  }

  /** Whether each of the last `HorizonDays` days, today first, has a sleep
      entry; `SleepStreak` states what the walk over these flags yields. */
  function SleepDays(sleep: seq<SleepEntry>, today: Day): seq<bool> {
    seq(HorizonDays, i => HasSleepOn(sleep, today - i))
  }

  /** `pill_streak`: 0 without active medications; otherwise the number of
      complete days in the unbroken run that ends today (or yesterday, when
      today is still incomplete), looking back at most `HorizonDays` days. */
  function PillStreak(s: Store, today: Day): (r: nat)
    ensures r <= HorizonDays
    ensures ActiveIds(s.meds) == {} ==> r == 0
    ensures ActiveIds(s.meds) != {} ==>
      var last := if AllTakenOn(s, today) then today else today - 1;
      (today - last) + r <= HorizonDays &&
      (forall d :: last - r < d <= last ==> AllTakenOn(s, d)) &&
      ((today - last) + r == HorizonDays || !AllTakenOn(s, last - r))
  {
    if ActiveIds(s.meds) == {} then 0
    else
      var flags := PillDays(s, today);
      var r := StreakOf(flags);
      assert forall d :: today - SkipToday(flags) - r < d <= today - SkipToday(flags) ==>
        flags[today - d] && flags[today - d] == AllTakenOn(s, d);
      r
  }

  /** `sleep_streak`: the number of logged nights in the unbroken run that
      ends today (or yesterday, when today has no entry yet), looking back at
      most `HorizonDays` days. */
  function SleepStreak(sleep: seq<SleepEntry>, today: Day): (r: nat)
    ensures r <= HorizonDays
    ensures
      var last := if HasSleepOn(sleep, today) then today else today - 1;
      (today - last) + r <= HorizonDays &&
      (forall d :: last - r < d <= last ==> HasSleepOn(sleep, d)) &&
      ((today - last) + r == HorizonDays || !HasSleepOn(sleep, last - r))
  {
    var flags := SleepDays(sleep, today);
    var r := StreakOf(flags);
    assert forall d :: today - SkipToday(flags) - r < d <= today - SkipToday(flags) ==>
      flags[today - d] && flags[today - d] == HasSleepOn(sleep, d);
    r
  }

  /** An incomplete today caps the pill streak one below the horizon. */
  lemma PillStreakBoundWhenTodayIncomplete(s: Store, today: Day)
    requires !AllTakenOn(s, today)
    ensures PillStreak(s, today) < HorizonDays
  {
  }

  /** If the last `n` days up to today were complete and the day before
      them was not, the pill streak is exactly `n`. */
  lemma PillStreakOfCompleteRun(s: Store, today: Day, n: nat)
    requires ActiveIds(s.meds) != {}
    requires 0 < n < HorizonDays
    requires forall d :: today - n < d <= today ==> AllTakenOn(s, d)
    requires !AllTakenOn(s, today - n)
    ensures PillStreak(s, today) == n
  {
  }
}

=== FILE: doselog.dfy ===
/** The dose log: appending "taken" events, undoing the newest one for a
    day, the "taken on date" predicate, and the supply count each of them
    adjusts. */
module DoseLog {
  import opened Wrappers
  import opened Seqs
  import opened Records
  import opened Registry

  /** An entry records that `mid` was taken on day `d`. */
  predicate Matches(e: Dose, mid: Id, d: Day) {
    e.medId == mid && e.date == d && e.action == TakenAction
  }

  /** `taken_on_date` (and `taken_today` with `d` = today): at least one
      matching entry, however many there are. */
  predicate TakenOnDate(log: seq<Dose>, mid: Id, d: Day)
    ensures TakenOnDate(log, mid, d) <==> Count((e: Dose) => Matches(e, mid, d), log) > 0
  {
    CountPositive((e: Dose) => Matches(e, mid, d), log);
    exists i :: 0 <= i < |log| && Matches(log[i], mid, d)
  }

  /** Supply is either untracked or not negative. */
  predicate SupplyNonNegative(m: Medication) {
    m.supply.None? || m.supply.value >= 0
  }

  /** The decrement of `log_taken`: only a tracked supply above zero moves. */
  function TakeFromSupply(m: Medication): (r: Medication)
    ensures r.id == m.id
    ensures m.supply.Some? && m.supply.value > 0 ==> r.supply == Some(m.supply.value - 1)
    ensures m.supply.None? || m.supply.value <= 0 ==> r == m
    ensures r.(supply := m.supply) == m
    ensures SupplyNonNegative(m) ==> SupplyNonNegative(r)
  {
    if m.supply.Some? && m.supply.value > 0 then m.(supply := Some(m.supply.value - 1)) else m
  }

  /** The increment of `undo_taken`: any tracked supply goes up by one. */
  function ReturnToSupply(m: Medication): (r: Medication)
    ensures r.id == m.id
    ensures m.supply.Some? ==> r.supply == Some(m.supply.value + 1)
    ensures m.supply.None? ==> r == m
    ensures r.(supply := m.supply) == m
  {
    if m.supply.Some? then m.(supply := Some(m.supply.value + 1)) else m
  }

  /** Position of the newest entry matching `(mid, d, "taken")`. */
  function LastMatch(log: seq<Dose>, mid: Id, d: Day): (r: Option<nat>)
    ensures r.Some? ==> r.value < |log| && Matches(log[r.value], mid, d)
    ensures r.Some? ==> forall j :: r.value < j < |log| ==> !Matches(log[j], mid, d)
    ensures r.None? <==> !TakenOnDate(log, mid, d)
  {
    LastIndex((e: Dose) => Matches(e, mid, d), log)
  }

  /** `log_taken`: appends one entry for today and decrements the supply of
      the first medication with that identifier when it is tracked and above
      zero. `today` and `time` stand for the wall clock. */
  function LogTaken(s: Store, mid: Id, name: string, today: Day, time: string): (r: Store)
    ensures r.sleep == s.sleep
    ensures |r.log| == |s.log| + 1 && r.log[..|s.log|] == s.log
    ensures r.log[|s.log|] == Dose(mid, name, today, time, TakenAction)
    ensures TakenOnDate(r.log, mid, today)
    ensures |r.meds| == |s.meds|
    ensures forall j :: 0 <= j < |s.meds| ==> r.meds[j].id == s.meds[j].id
    ensures forall j :: 0 <= j < |s.meds| && Some(j) != FindMed(s.meds, mid) ==> r.meds[j] == s.meds[j]
    ensures FindMed(s.meds, mid).Some? ==>
      var i := FindMed(s.meds, mid).value;
      var before := s.meds[i].supply;
      r.meds[i].(supply := before) == s.meds[i] &&
      r.meds[i].supply == (if before.Some? && before.value > 0 then Some(before.value - 1) else before)
    ensures forall j :: 0 <= j < |s.meds| && SupplyNonNegative(s.meds[j]) ==> SupplyNonNegative(r.meds[j])
  {
    var entry := Dose(mid, name, today, time, TakenAction);
    var log := s.log + [entry];
    assert Matches(log[|s.log|], mid, today);
    var meds :=
      match FindMed(s.meds, mid)
      case None => s.meds
      case Some(i) => s.meds[i := TakeFromSupply(s.meds[i])];
    Store(meds, log, s.sleep)
  }

  /** `undo_taken`: removes the newest entry matching `(mid, d, "taken")`
      and then, if the medication tracks a supply, increments it by one;
      changes nothing when no entry matches. */
  function UndoTaken(s: Store, mid: Id, d: Day): (r: Store)
    ensures r.sleep == s.sleep
    ensures !TakenOnDate(s.log, mid, d) ==> r == s
    ensures TakenOnDate(s.log, mid, d) ==>
      var i := LastMatch(s.log, mid, d).value;
      |r.log| == |s.log| - 1 &&
      (forall j :: 0 <= j < i ==> r.log[j] == s.log[j]) &&
      (forall j :: i <= j < |r.log| ==> r.log[j] == s.log[j + 1]) &&
      multiset(r.log) + multiset{s.log[i]} == multiset(s.log)
    ensures |r.meds| == |s.meds|
    ensures forall j :: 0 <= j < |s.meds| ==> r.meds[j].id == s.meds[j].id
    ensures forall j :: 0 <= j < |s.meds| && Some(j) != FindMed(s.meds, mid) ==> r.meds[j] == s.meds[j]
    ensures TakenOnDate(s.log, mid, d) && FindMed(s.meds, mid).Some? ==>
      var i := FindMed(s.meds, mid).value;
      var before := s.meds[i].supply;
      r.meds[i].(supply := before) == s.meds[i] &&
      r.meds[i].supply == (if before.Some? then Some(before.value + 1) else None)
  {
    match LastMatch(s.log, mid, d)
    case None => s
    case Some(i) =>
      var meds :=
        match FindMed(s.meds, mid)
        case None => s.meds
        case Some(k) => s.meds[k := ReturnToSupply(s.meds[k])];
      Store(meds, RemoveAt(s.log, i), s.sleep)
  }

  /** Taking a dose then undoing it for the same day restores the store
      exactly, provided the supply was untracked or above zero. */
  lemma TakeUndoRoundTrip(s: Store, mid: Id, name: string, today: Day, time: string)
    requires FindMed(s.meds, mid).Some? ==>
      var m := s.meds[FindMed(s.meds, mid).value]; m.supply.None? || m.supply.value > 0
    ensures UndoTaken(LogTaken(s, mid, name, today, time), mid, today) == s
  {
    var t := LogTaken(s, mid, name, today, time);
    var n := |s.log|;
    assert LastMatch(t.log, mid, today) == Some(n);
    assert RemoveAt(t.log, n) == s.log;
    match FindMed(s.meds, mid)
    case None =>
    case Some(i) =>
      SupplyRoundTrip(s.meds, mid, i);
      assert t.meds == s.meds[i := TakeFromSupply(s.meds[i])];
  }

  /** Returning a dose to the medication a dose was just taken from finds
      the same record and restores it, when its supply was untracked or
      above zero. */
  lemma SupplyRoundTrip(meds: seq<Medication>, mid: Id, i: nat)
    requires FindMed(meds, mid) == Some(i)
    requires meds[i].supply.None? || meds[i].supply.value > 0
    ensures var t := meds[i := TakeFromSupply(meds[i])];
      FindMed(t, mid) == Some(i) && t[i := ReturnToSupply(t[i])] == meds
  {
    FirstIndexUpdate((m: Medication) => HasId(m, mid), meds, i, TakeFromSupply(meds[i]));
  }

  /** The round trip is not exact from an empty supply: take leaves 0 alone
      but undo still adds one, so the supply drifts up to 1. */
  lemma TakeUndoFromEmptySupply(s: Store, mid: Id, name: string, today: Day, time: string)
    requires FindMed(s.meds, mid).Some?
    requires s.meds[FindMed(s.meds, mid).value].supply == Some(0)
    ensures var r := UndoTaken(LogTaken(s, mid, name, today, time), mid, today);
      r.log == s.log && r.meds[FindMed(s.meds, mid).value].supply == Some(1)
  {
    var t := LogTaken(s, mid, name, today, time);
    var i := FindMed(s.meds, mid).value;
    assert LastMatch(t.log, mid, today) == Some(|s.log|);
    assert RemoveAt(t.log, |s.log|) == s.log;
    FirstIndexUpdate((m: Medication) => HasId(m, mid), s.meds, i, TakeFromSupply(s.meds[i]));
  }

  /** A day logged twice needs two undos: after one, it still counts as
      taken; after the second, it no longer does (when it was not taken
      before). */
  lemma DoubleTakeNeedsTwoUndos(s: Store, mid: Id, name: string, today: Day, t1: string, t2: string)
    requires !TakenOnDate(s.log, mid, today)
    ensures var twice := LogTaken(LogTaken(s, mid, name, today, t1), mid, name, today, t2);
      TakenOnDate(UndoTaken(twice, mid, today).log, mid, today) &&
      !TakenOnDate(UndoTaken(UndoTaken(twice, mid, today), mid, today).log, mid, today)
  {
    var once := LogTaken(s, mid, name, today, t1);
    var twice := LogTaken(once, mid, name, today, t2);
    var n := |s.log|;
    assert LastMatch(twice.log, mid, today) == Some(n + 1);
    var u1 := UndoTaken(twice, mid, today);
    assert u1.log == once.log by {
      assert RemoveAt(twice.log, n + 1) == once.log;
    }
    assert LastMatch(u1.log, mid, today) == Some(n);
    var u2 := UndoTaken(u1, mid, today);
    assert u2.log == s.log by {
      assert RemoveAt(once.log, n) == s.log;
    }
  }

  /** Taking a dose never clears a low-stock alert: supply only goes down. */
  lemma TakingKeepsLowStock(s: Store, mid: Id, name: string, today: Day, time: string, j: nat)
    requires j < |s.meds| && IsLowStock(s.meds[j])
    ensures IsLowStock(LogTaken(s, mid, name, today, time).meds[j])
  {
  }
}

=== FILE: persistence.dfy ===
/** The data document as it is loaded, exported and imported: the backfill
    of missing collections, the import check with its legacy-key remapping,
    and the date order of the CSV export. Reading and writing files is not
    modelled: a load arrives as the parsed document or as nothing. */
module Persistence {
  import opened Wrappers
  import opened Seqs
  import opened Records

  /** A dose-log entry in the legacy `pill_log` format, which may lack
      `med_id` and `med_name` and carry `pill_name` instead. */
  datatype LegacyDose = LegacyDose(
    medId: Option<Id>,
    medName: Option<string>,
    pillName: Option<string>,
    date: Day,
    time: string,
    action: string)

  /** A parsed data document: each recognised top-level key, present or not.
      `pills` and `pill_log` are the legacy names of `medications` and
      `med_log`. */
  datatype Document = Document(
    medications: Option<seq<Medication>>,
    medLog: Option<seq<Dose>>,
    sleepLog: Option<seq<SleepEntry>>,
    pills: Option<seq<Medication>>,
    pillLog: Option<seq<LegacyDose>>)

  datatype ImportError = NotTrackerData

  /** `data.setdefault(k, [])` for the three collections; its effect on
      a loaded or imported document is stated by `LoadExportRoundTrip` and
      `ImportData`. */
  function Backfill(doc: Document): Store {
    Store(doc.medications.GetOr([]), doc.medLog.GetOr([]), doc.sleepLog.GetOr([]))
  }

  /** Start-up: the parsed file, or the empty document when the file is
      missing or unreadable, with missing collections backfilled. Legacy keys
      are not remapped on this path. */
  function LoadData(read: Option<Document>): Store {
    match read
    case None => EmptyStore
    case Some(doc) => Backfill(doc)
  }

  /** A missing or unreadable file starts the tracker with empty data. */
  lemma LoadMissingFile()
    ensures LoadData(None) == EmptyStore
  {
  }

  /** The JSON export: the document with its three collections. */
  function ExportData(s: Store): (r: Document)
    ensures r.medications.Some? && r.medLog.Some? && r.sleepLog.Some?
    ensures r.pills.None? && r.pillLog.None?
  {
    Document(Some(s.meds), Some(s.log), Some(s.sleep), None, None)
  }

  /** Loading an exported document gives back the same data. */
  lemma LoadExportRoundTrip(s: Store)
    ensures LoadData(Some(ExportData(s))) == s
  {
  }

  /** The import check: at least one of `medications`, `med_log`,
      `sleep_log` or `pills` is present (`pill_log` alone does not count). */
  predicate IsTrackerData(doc: Document)
    ensures IsTrackerData(doc) <==> doc != Document(None, None, None, None, doc.pillLog)
  {
    doc.medications.Some? || doc.medLog.Some? || doc.sleepLog.Some? || doc.pills.Some?
  }

  /** `m.setdefault("id", uuid4())` over the legacy medications;
      `freshIds[i]` stands for the identifier generated for position `i`. */
  function AssignIds(meds: seq<Medication>, freshIds: seq<Id>): (r: seq<Medication>)
    requires |freshIds| >= |meds|
    ensures |r| == |meds|
    ensures forall i :: 0 <= i < |r| ==> r[i].id.Some? && r[i].(id := meds[i].id) == meds[i]
    ensures forall i :: 0 <= i < |r| && meds[i].id.Some? ==> r[i] == meds[i]
    ensures forall i :: 0 <= i < |r| && meds[i].id.None? ==> r[i].id == Some(freshIds[i])
  {
    seq(|meds|, i requires 0 <= i < |meds| =>
      if meds[i].id.Some? then meds[i] else meds[i].(id := Some(freshIds[i])))
  }

  /** One legacy entry brought into the current format: `med_id` and
      `med_name` default to `pill_name` (or "" when that is missing too). */
  function Upgrade(l: LegacyDose): Dose {
    var fallback := l.pillName.GetOr("");
    Dose(l.medId.GetOr(fallback), l.medName.GetOr(fallback), l.date, l.time, l.action)
  }

  /** The same entry written with the legacy key names. */
  function AsLegacy(e: Dose, pillName: Option<string>): LegacyDose {
    LegacyDose(Some(e.medId), Some(e.medName), pillName, e.date, e.time, e.action)
  }

  /** An entry that already carries `med_id` and `med_name` comes through
      the upgrade unchanged, whatever its `pill_name`. */
  lemma UpgradeKeepsCurrentEntry(e: Dose, pillName: Option<string>)
    ensures Upgrade(AsLegacy(e, pillName)) == e
  {
  }

  /** An entry known only by `pill_name` is filed under that name, as both
      its identifier and its display name; one with no name at all is filed
      under "". */
  lemma UpgradeNamesFromPillName(l: LegacyDose)
    requires l.medId.None? && l.medName.None?
    ensures Upgrade(l).medId == Upgrade(l).medName
    ensures l.pillName.Some? ==> Upgrade(l).medId == l.pillName.value
    ensures l.pillName.None? ==> Upgrade(l).medId == ""
    ensures (Upgrade(l).date, Upgrade(l).time, Upgrade(l).action) == (l.date, l.time, l.action)
  {
  }

  /** The import normalisation: rejects a document with none of the
      recognised keys; renames `pills` (giving every record an identifier)
      only when `medications` is absent, and `pill_log` (upgrading every
      entry) only when `med_log` is absent; then backfills the three
      collections. A legacy key that is not renamed stays in the document. */
  function NormaliseImport(doc: Document, freshIds: seq<Id>): (r: Result<Document, ImportError>)
    requires doc.pills.Some? ==> |freshIds| >= |doc.pills.value|
    ensures r.Failure? <==> !IsTrackerData(doc)
    ensures r.Success? ==> r.value.medications.Some? && r.value.medLog.Some? && r.value.sleepLog.Some?
    ensures r.Success? && doc.medications.Some? ==>
      r.value.medications == doc.medications && r.value.pills == doc.pills
    ensures r.Success? && doc.medications.None? && doc.pills.Some? ==>
      var meds := r.value.medications.value;
      r.value.pills.None? && |meds| == |doc.pills.value| &&
      forall i :: 0 <= i < |meds| ==> meds[i].id.Some? && meds[i].(id := doc.pills.value[i].id) == doc.pills.value[i]
    ensures r.Success? && doc.medLog.Some? ==>
      r.value.medLog == doc.medLog && r.value.pillLog == doc.pillLog
    ensures r.Success? && doc.medLog.None? && doc.pillLog.Some? ==>
      var log := r.value.medLog.value;
      r.value.pillLog.None? && |log| == |doc.pillLog.value| &&
      forall i :: 0 <= i < |log| ==> log[i] == Upgrade(doc.pillLog.value[i])
    ensures r.Success? && doc.medications.None? && doc.pills.None? ==> r.value.medications == Some([])
    ensures r.Success? && doc.medLog.None? && doc.pillLog.None? ==> r.value.medLog == Some([])
    ensures r.Success? ==> r.value.sleepLog == Some(doc.sleepLog.GetOr([]))
  {
    if !IsTrackerData(doc) then Failure(NotTrackerData)
    else
      var renamedMeds := doc.pills.Some? && doc.medications.None?;
      var renamedLog := doc.pillLog.Some? && doc.medLog.None?;
      var meds := if renamedMeds then Some(AssignIds(doc.pills.value, freshIds)) else doc.medications;
      var log := if renamedLog then Some(seq(|doc.pillLog.value|, i requires 0 <= i < |doc.pillLog.value| => Upgrade(doc.pillLog.value[i]))) else doc.medLog;
      Success(Document(
        Some(meds.GetOr([])),
        Some(log.GetOr([])),
        Some(doc.sleepLog.GetOr([])),
        if renamedMeds then None else doc.pills,
        if renamedLog then None else doc.pillLog))
  }

  /** Importing replaces the data with the normalised document. */
  function ImportData(doc: Document, freshIds: seq<Id>): (r: Result<Store, ImportError>)
    requires doc.pills.Some? ==> |freshIds| >= |doc.pills.value|
    ensures r.Failure? <==> !IsTrackerData(doc)
    ensures r.Success? && doc.medications.Some? ==> r.value.meds == doc.medications.value
    ensures r.Success? && doc.medications.None? && doc.pills.Some? ==>
      r.value.meds == AssignIds(doc.pills.value, freshIds)
    ensures r.Success? && doc.medications.None? && doc.pills.None? ==> r.value.meds == []
    ensures r.Success? && doc.medLog.Some? ==> r.value.log == doc.medLog.value
    ensures r.Success? && doc.medLog.None? && doc.pillLog.Some? ==>
      |r.value.log| == |doc.pillLog.value| &&
      forall i :: 0 <= i < |r.value.log| ==> r.value.log[i] == Upgrade(doc.pillLog.value[i])
    ensures r.Success? && doc.medLog.None? && doc.pillLog.None? ==> r.value.log == []
    ensures r.Success? ==> r.value.sleep == doc.sleepLog.GetOr([])
  {
    match NormaliseImport(doc, freshIds)
    case Failure(e) => Failure(e)
    case Success(norm) => Success(Backfill(norm))
  }

  /** Importing an exported document restores the same data. */
  lemma ImportExportRoundTrip(s: Store, freshIds: seq<Id>)
    ensures ImportData(ExportData(s), freshIds) == Success(s)
  {
  }

  /** A document holding only a legacy `pill_log` is refused. */
  lemma PillLogAloneIsRefused(entries: seq<LegacyDose>, freshIds: seq<Id>)
    ensures ImportData(Document(None, None, None, None, Some(entries)), freshIds) == Failure(NotTrackerData)
  {
  }

  /** Entries of one date, in their order. */
  function OnDate(log: seq<Dose>, d: Day): seq<Dose> {
    Filter((e: Dose) => e.date == d, log)
  }

  ghost predicate SortedByDate(log: seq<Dose>) {
    forall i, j :: 0 <= i < j < |log| ==> log[i].date <= log[j].date
  }

  /** Places `x` before the first entry whose date is not earlier. */
  function InsertByDate(x: Dose, t: seq<Dose>): (r: seq<Dose>)
    ensures multiset(r) == multiset(t) + multiset{x}
    decreases |t|
  {
    if |t| == 0 || x.date <= t[0].date then [x] + t
    else
      assert t == [t[0]] + t[1..];
      [t[0]] + InsertByDate(x, t[1..])
  }

  /** Inserting into a date-ordered log keeps it date-ordered. */
  lemma {:induction false} InsertKeepsSorted(x: Dose, t: seq<Dose>)
    requires SortedByDate(t)
    ensures SortedByDate(InsertByDate(x, t))
    decreases |t|
  {
    if |t| > 0 && x.date > t[0].date {
      var rest := InsertByDate(x, t[1..]);
      InsertKeepsSorted(x, t[1..]);
      forall k | 0 <= k < |rest|
        ensures t[0].date <= rest[k].date
      {
        assert rest[k] in multiset(rest);
        assert rest[k] == x || rest[k] in t[1..];
      }
    }
  }

  /** `sorted(med_log, key=lambda x: x["date"])`, the row order of the CSV
      export. */
  function SortByDate(log: seq<Dose>): (r: seq<Dose>)
    ensures multiset(r) == multiset(log)
    ensures SortedByDate(r)
  {
    if |log| == 0 then []
    else
      assert log == [log[0]] + log[1..];
      InsertKeepsSorted(log[0], SortByDate(log[1..]));
      InsertByDate(log[0], SortByDate(log[1..]))
  }

  /** Inserting `x` adds it in front of the entries of its own date. */
  lemma {:induction false} InsertOnDate(x: Dose, t: seq<Dose>, d: Day)
    ensures OnDate(InsertByDate(x, t), d) == (if x.date == d then [x] else []) + OnDate(t, d)
    decreases |t|
  {
    var p := (e: Dose) => e.date == d;
    if |t| == 0 || x.date <= t[0].date {
      assert ([x] + t)[1..] == t;
    } else {
      InsertOnDate(x, t[1..], d);
      var rest := InsertByDate(x, t[1..]);
      assert ([t[0]] + rest)[1..] == rest;
      assert Filter(p, t) == (if p(t[0]) then [t[0]] else []) + Filter(p, t[1..]);
    }
  }

  /** The sort is stable: entries of the same date keep their relative order. */
  lemma {:induction false} SortIsStable(log: seq<Dose>, d: Day)
    ensures OnDate(SortByDate(log), d) == OnDate(log, d)
  {
    if |log| > 0 {
      SortIsStable(log[1..], d);
      InsertOnDate(log[0], SortByDate(log[1..]), d);
    }
  }

  /** A CSV row: date, time, medication name, action. */
  datatype CsvRow = CsvRow(date: Day, time: string, medication: string, action: string)

  /** `[l["date"], l.get("time", ""), l["med_name"], l["action"]]`. */
  function Row(e: Dose): CsvRow {
    CsvRow(e.date, e.time, e.medName, e.action)
  }

  /** Rows drawn in order from a permutation of the log are exactly the
      rows of the log's entries. */
  lemma RowsOfPermutation(log: seq<Dose>, sorted: seq<Dose>, r: seq<CsvRow>)
    requires multiset(sorted) == multiset(log)
    requires |r| == |sorted| && forall i :: 0 <= i < |r| ==> r[i] == Row(sorted[i])
    ensures forall j :: 0 <= j < |log| ==> Row(log[j]) in r
    ensures forall i :: 0 <= i < |r| ==> exists j :: 0 <= j < |log| && r[i] == Row(log[j])
  {
    forall j | 0 <= j < |log|
      ensures Row(log[j]) in r
    {
      assert log[j] in multiset(sorted);
      var i :| 0 <= i < |sorted| && sorted[i] == log[j];
      assert r[i] == Row(log[j]);
    }
    forall i | 0 <= i < |r|
      ensures exists j :: 0 <= j < |log| && r[i] == Row(log[j])
    {
      assert sorted[i] in multiset(log);
      var j :| 0 <= j < |log| && log[j] == sorted[i];
      assert r[i] == Row(log[j]);
    }
  }

  /** The data rows of the CSV export: one row per dose-log entry, in the
      stable date order of `SortByDate`. */
  function CsvRows(log: seq<Dose>): (r: seq<CsvRow>)
    ensures |r| == |log|
    ensures forall i, j :: 0 <= i < j < |r| ==> r[i].date <= r[j].date
    ensures forall i :: 0 <= i < |r| ==> r[i] == Row(SortByDate(log)[i])
    ensures forall j :: 0 <= j < |log| ==> Row(log[j]) in r
    ensures forall i :: 0 <= i < |r| ==> exists j :: 0 <= j < |log| && r[i] == Row(log[j])
  {
    var sorted := SortByDate(log);
    assert |multiset(sorted)| == |sorted| && |multiset(log)| == |log|;
    var r := seq(|sorted|, i requires 0 <= i < |sorted| => Row(sorted[i]));
    RowsOfPermutation(log, sorted, r);
    r
  }
}

=== FILE: records.dfy ===
/** The tracker's data document: medications, the dose log and the sleep
    log, as typed records. A field that the program reads with `d.get(key)`
    and may find missing is an `Option`. */
module Records {
  import opened Wrappers

  /** A calendar day as a day number; consecutive days differ by one. */
  type Day = int

  /** A medication identifier (a UUID string when the program makes it). */
  type Id = string

  /** The only action the dose log records. */
  const TakenAction: string := "taken"

  /** Low-stock threshold used when a medication carries none. */
  const DefaultSupplyWarn: int := 7

  /** A medication definition. `supply` absent means "not tracked";
      `active` absent counts as active. */
  datatype Medication = Medication(
    id: Option<Id>,
    name: string,
    dosage: Option<string>,
    frequency: Option<string>,
    timeOfDay: Option<string>,
    color: Option<string>,
    supply: Option<int>,
    supplyWarn: Option<int>,
    notes: Option<string>,
    active: Option<bool>,
    created: Option<string>)

  /** A partial update, as the dict handed to `update_med`: `None` means the
      key is not in the dict, `Some(v)` means the key is there with value `v`
      (for `supply`, `v` may itself be "not tracked"). */
  datatype MedPatch = MedPatch(
    id: Option<Option<Id>>,
    name: Option<string>,
    dosage: Option<Option<string>>,
    frequency: Option<Option<string>>,
    timeOfDay: Option<Option<string>>,
    color: Option<Option<string>>,
    supply: Option<Option<int>>,
    supplyWarn: Option<Option<int>>,
    notes: Option<Option<string>>,
    active: Option<Option<bool>>,
    created: Option<Option<string>>)

  /** The update dict with no keys. */
  const EmptyPatch: MedPatch :=
    MedPatch(None, None, None, None, None, None, None, None, None, None, None)

  /** One dose-log event. The name is captured when the dose is logged. */
  datatype Dose = Dose(medId: Id, medName: string, date: Day, time: string, action: string)

  /** One night of sleep, keyed by `date`. */
  datatype SleepEntry = SleepEntry(
    date: Day,
    bedtime: Option<string>,
    waketime: Option<string>,
    durationMin: int,
    quality: int,
    factors: seq<string>,
    notes: string,
    score: int,
    loggedAt: Option<string>)

  /** The in-memory data document with its three collections. */
  datatype Store = Store(meds: seq<Medication>, log: seq<Dose>, sleep: seq<SleepEntry>)

  /** The document used when nothing could be loaded. */
  const EmptyStore: Store := Store([], [], [])
}

=== FILE: registry.dfy ===
/** The medication registry: listing, adding, updating, deleting and
    looking up medication definitions, and the low-stock alert list. */
module Registry {
  import opened Wrappers
  import opened Seqs
  import opened Records

  /** `m.get("active", True)`. */
  predicate IsActive(m: Medication) {
    m.active.GetOr(true)
  }

  /** `m["id"] == mid`. */
  predicate HasId(m: Medication, mid: Id) {
    m.id == Some(mid)
  }

  /** The `meds` property: active medications in registry order. */
  function ActiveMeds(meds: seq<Medication>): (r: seq<Medication>)
    ensures forall i :: 0 <= i < |r| ==> r[i] in meds && IsActive(r[i])
    ensures forall i :: 0 <= i < |meds| && IsActive(meds[i]) ==> meds[i] in r
    ensures IsSubseq(r, meds) && |r| == Count(IsActive, meds)
  {
    Filter(IsActive, meds)
  }

  /** Position of the first medication with identifier `mid`. */
  function FindMed(meds: seq<Medication>, mid: Id): (r: Option<nat>)
    ensures r.Some? ==> r.value < |meds| && HasId(meds[r.value], mid)
    ensures r.Some? ==> forall j :: 0 <= j < r.value ==> !HasId(meds[j], mid)
    ensures r.None? <==> forall j :: 0 <= j < |meds| ==> !HasId(meds[j], mid)
  {
    FirstIndex((m: Medication) => HasId(m, mid), meds)
  }

  /** `get_med`: the first medication with identifier `mid`, if any. */
  function GetMed(meds: seq<Medication>, mid: Id): (r: Option<Medication>)
    ensures r.Some? ==> r.value in meds && HasId(r.value, mid)
    ensures r.None? <==> forall j :: 0 <= j < |meds| ==> !HasId(meds[j], mid)
    ensures r.Some? ==> exists i :: 0 <= i < |meds| && meds[i] == r.value && forall j :: 0 <= j < i ==> !HasId(meds[j], mid)
  {
    match FindMed(meds, mid)
    case None => None
    case Some(i) => Some(meds[i])
  }

  /** `add_med`: fills in `id`, `created` and `active` only where the caller
      left them out, then appends. `freshId` and `now` stand for `uuid4()`
      and the current timestamp. */
  function AddMed(meds: seq<Medication>, draft: Medication, freshId: Id, now: string): (r: seq<Medication>)
    ensures |r| == |meds| + 1 && r[..|meds|] == meds
    ensures r[|meds|].id.Some? && r[|meds|].created.Some? && r[|meds|].active.Some?
    ensures draft.id.Some? ==> r[|meds|].id == draft.id
    ensures draft.id.None? ==> r[|meds|].id == Some(freshId)
    ensures draft.created.Some? ==> r[|meds|].created == draft.created
    ensures draft.created.None? ==> r[|meds|].created == Some(now)
    ensures IsActive(r[|meds|]) <==> draft.active != Some(false)
    ensures r[|meds|].(id := draft.id, created := draft.created, active := draft.active) == draft
  {
    var filled := draft.(
      id := Some(draft.id.GetOr(freshId)),
      created := Some(draft.created.GetOr(now)),
      active := Some(draft.active.GetOr(true)));
    meds + [filled]
  }

  /** `m.update(p)`: a shallow merge where every key of the patch wins.
      What this means for callers is stated by `MergeEmptyPatch`,
      `MergeIdempotent` and `UpdateThenGet`. */
  function Merge(m: Medication, p: MedPatch): Medication {
    Medication(
      p.id.GetOr(m.id),
      p.name.GetOr(m.name),
      p.dosage.GetOr(m.dosage),
      p.frequency.GetOr(m.frequency),
      p.timeOfDay.GetOr(m.timeOfDay),
      p.color.GetOr(m.color),
      p.supply.GetOr(m.supply),
      p.supplyWarn.GetOr(m.supplyWarn),
      p.notes.GetOr(m.notes),
      p.active.GetOr(m.active),
      p.created.GetOr(m.created))
  }

  /** `update_med`: merges the patch into the first medication with
      identifier `mid` and leaves every other record alone; no-op when no
      record has that identifier. */
  function UpdateMed(meds: seq<Medication>, mid: Id, patch: MedPatch): (r: seq<Medication>)
    ensures |r| == |meds|
    ensures FindMed(meds, mid).None? ==> r == meds
    ensures FindMed(meds, mid).Some? ==>
      var i := FindMed(meds, mid).value;
      r[i] == Merge(meds[i], patch) && forall j :: 0 <= j < |meds| && j != i ==> r[j] == meds[j]
  {
    match FindMed(meds, mid)
    case None => meds
    case Some(i) => meds[i := Merge(meds[i], patch)]
  }

  /** `delete_med`: drops every medication with identifier `mid`; the others
      keep their order. */
  function DeleteMed(meds: seq<Medication>, mid: Id): (r: seq<Medication>)
    ensures forall i :: 0 <= i < |r| ==> r[i] in meds && !HasId(r[i], mid)
    ensures forall i :: 0 <= i < |meds| && !HasId(meds[i], mid) ==> meds[i] in r
    ensures IsSubseq(r, meds)
    ensures |r| == |meds| - Count((m: Medication) => HasId(m, mid), meds)
  {
    var keep := (m: Medication) => !HasId(m, mid);
    CountComplement(keep, (m: Medication) => HasId(m, mid), meds);
    Filter(keep, meds)
  }

  /** The low-stock condition of the dashboard alert: supply is tracked and
      at or below the warning level (7 unless the record says otherwise). */
  predicate IsLowStock(m: Medication) {
    m.supply.Some? && m.supply.value <= m.supplyWarn.GetOr(DefaultSupplyWarn)
  }

  /** The dashboard's low-stock list, drawn from the active medications. */
  function LowStockAlerts(meds: seq<Medication>): (r: seq<Medication>)
    ensures forall i :: 0 <= i < |r| ==> r[i] in meds && IsActive(r[i]) && IsLowStock(r[i])
    ensures forall i :: 0 <= i < |meds| && IsActive(meds[i]) && IsLowStock(meds[i]) ==> meds[i] in r
    ensures IsSubseq(r, ActiveMeds(meds)) && |r| == Count(IsLowStock, ActiveMeds(meds))
  {
    Filter(IsLowStock, ActiveMeds(meds))
  }

  /** An empty update changes nothing. */
  lemma MergeEmptyPatch(m: Medication)
    ensures Merge(m, EmptyPatch) == m
  {
  }

  /** Applying the same update twice is the same as applying it once. */
  lemma MergeIdempotent(m: Medication, p: MedPatch)
    ensures Merge(Merge(m, p), p) == Merge(m, p)
  {
  }

  /** After an update that leaves the identifier alone, looking the
      medication up returns the merged record. */
  lemma UpdateThenGet(meds: seq<Medication>, mid: Id, patch: MedPatch)
    requires FindMed(meds, mid).Some? && patch.id.None?
    ensures GetMed(UpdateMed(meds, mid, patch), mid) == Some(Merge(meds[FindMed(meds, mid).value], patch))
  {
    var i := FindMed(meds, mid).value;
    FirstIndexUpdate((m: Medication) => HasId(m, mid), meds, i, Merge(meds[i], patch));
  }

  /** After a delete, the identifier is no longer found. */
  lemma DeleteThenGet(meds: seq<Medication>, mid: Id)
    ensures GetMed(DeleteMed(meds, mid), mid).None?
  {
  }

  /** A medication added with a fresh identifier is found by that
      identifier, and it is listed as active unless the caller said so. */
  lemma AddThenGet(meds: seq<Medication>, draft: Medication, freshId: Id, now: string)
    requires draft.id.None?
    requires forall j :: 0 <= j < |meds| ==> !HasId(meds[j], freshId)
    ensures GetMed(AddMed(meds, draft, freshId, now), freshId) == Some(AddMed(meds, draft, freshId, now)[|meds|])
  {
    var r := AddMed(meds, draft, freshId, now);
    assert forall j :: 0 <= j < |meds| ==> r[j] == meds[j];
  }
}

=== FILE: scenarios.dfy ===
/** Worked examples on concrete data: one medication taken and untaken,
    one night logged through the form, and an overlong night refused. */
module Scenarios {
  import opened Wrappers
  import opened Records
  import opened Registry
  import opened DoseLog
  import opened SleepLog
  import opened Score
  import opened Analytics
  import opened SleepForm

  /** A tracked daily medication with ten doses left. */
  const VitaminD: Medication :=
    Medication(Some("vit-d"), "Vitamin D", Some("1000 IU"), Some("daily"), Some("morning"),
               None, Some(10), None, None, Some(true), Some("2024-01-01T08:00:00"))

  const OneMed: Store := Store([VitaminD], [], [])

  /** Taking the only active medication completes the day and uses one
      dose; undoing restores the store exactly. */
  lemma VitaminDTakenAndUndone(today: Day)
    ensures var taken := LogTaken(OneMed, "vit-d", "Vitamin D", today, "08:00");
      taken.meds[0].supply == Some(9) &&
      AllTakenOn(taken, today) && DayRatio(taken, today) == 1.0 &&
      !AllTakenOn(taken, today + 1) &&
      UndoTaken(taken, "vit-d", today) == OneMed
  {
    var taken := LogTaken(OneMed, "vit-d", "Vitamin D", today, "08:00");
    assert ActiveIds(taken.meds) == {"vit-d"} by {
      assert taken.meds[0].id == Some("vit-d") && IsActive(taken.meds[0]);
    }
    assert !TakenOnDate(taken.log, "vit-d", today + 1);
    TakeUndoRoundTrip(OneMed, "vit-d", "Vitamin D", today, "08:00");
  }

  /** 23:00 to 07:00 is an eight-hour night; the form stores it under its
      date with the zero-padded times. */
  lemma EightHourNight(date: Day, quality: int, durationTerm: real, today: Day, now: string)
    requires 0.0 <= durationTerm <= 40.0
    ensures var r := RecordSleep(EmptyStore, date, 23, 0, 7, 0, quality, [], "", durationTerm, 0.0, today, now);
      r.Success? && GetSleep(r.value.sleep, date).value.durationMin == 480 &&
      GetSleep(r.value.sleep, date).value.bedtime == Some("23:00")
  {
    assert SleepDuration(23 * 60, 7 * 60) == 480;
    assert FormatClock(23, 0) == "23:00";
  }

  /** 08:00 to 03:00 would be nineteen hours of sleep: refused. */
  lemma NineteenHoursRefused(date: Day, quality: int, durationTerm: real, today: Day, now: string)
    requires 0.0 <= durationTerm <= 40.0
    ensures RecordSleep(EmptyStore, date, 8, 0, 3, 0, quality, [], "", durationTerm, 0.0, today, now) == Failure(InvalidTimes)
  {
    assert SleepDuration(8 * 60, 3 * 60) == 1140;
  }
}

=== FILE: score.dfy ===
/** The sleep score: bedtime parsing with the noon wrap, the consistency
    term over recent bedtimes, the quality term and the final clamp. The two
    floating-point pieces the program computes with `math.exp` and a square
    root enter as parameters: the duration term and the standard deviation. */
module Score {
  import opened Wrappers
  import opened Seqs

  /** `s.split(":")`: the pieces between colons, always at least one. */
  function Split(s: string): (r: seq<string>)
    ensures |r| >= 1
    ensures forall i :: 0 <= i < |r| ==> ':' !in r[i]
    ensures Join(r) == s
    decreases |s|
  {
    if |s| == 0 then [""]
    else
      var rest := Split(s[1..]);
      if s[0] == ':' then
        assert ([""] + rest)[1..] == rest;
        [""] + rest
      else
        var r := [[s[0]] + rest[0]] + rest[1..];
        assert |rest| > 1 ==> r[1..] == rest[1..];
        r
  }

  /** `":".join(parts)`. */
  function Join(parts: seq<string>): string
    requires |parts| >= 1
  {
    if |parts| == 1 then parts[0] else parts[0] + ":" + Join(parts[1..])
  }

  /** Two colon-free pieces joined by one colon split back into them. */
  lemma {:induction false} SplitTwo(a: string, b: string)
    requires ':' !in a && ':' !in b
    ensures Split(a + ":" + b) == [a, b]
    decreases |a|
  {
    if |a| == 0 {
      assert a + ":" + b == [':'] + b;
      assert ([':'] + b)[1..] == b;
      SplitNoColon(b);
    } else {
      assert (a + ":" + b)[1..] == a[1..] + ":" + b;
      SplitTwo(a[1..], b);
      assert [a[0]] + a[1..] == a;
    }
  }

  /** A colon-free string is one piece. */
  lemma {:induction false} SplitNoColon(s: string)
    requires ':' !in s
    ensures Split(s) == [s]
    decreases |s|
  {
    if |s| > 0 {
      SplitNoColon(s[1..]);
      assert [s[0]] + s[1..] == s;
    }
  }

  predicate IsDigit(c: char) {
    '0' <= c <= '9'
  }

  predicate AllDigits(s: string) {
    forall i :: 0 <= i < |s| ==> IsDigit(s[i])
  }

  /** The value of a string of decimal digits. */
  function DigitsValue(s: string): nat
    requires AllDigits(s)
  {
    if |s| == 0 then 0 else DigitsValue(s[..|s| - 1]) * 10 + (s[|s| - 1] - '0') as nat
  }

  /** `int(s)` for an optionally signed run of ASCII digits; anything else
      is the `ValueError` the program catches. */
  function ParseInt(s: string): Option<int>
  {
    if |s| > 1 && (s[0] == '+' || s[0] == '-') && AllDigits(s[1..]) then
      Some(if s[0] == '-' then -(DigitsValue(s[1..]) as int) else DigitsValue(s[1..]) as int)
    else if |s| > 0 && AllDigits(s) then Some(DigitsValue(s))
    else None
  }

  /** `f"{n:02d}"` for `n` below 100. */
  function Pad2(n: nat): (r: string)
    requires n < 100
    ensures |r| == 2 && AllDigits(r)
  {
    [('0' as int + n / 10) as char, ('0' as int + n % 10) as char]
  }

  /** Reading two padded digits gives the number back. */
  lemma Pad2Value(n: nat)
    requires n < 100
    ensures ParseInt(Pad2(n)) == Some(n)
  {
    var a := Pad2(n);
    assert a[..1] == [a[0]];
    assert DigitsValue(a[..1]) == n / 10;
    assert DigitsValue(a) == (n / 10) * 10 + n % 10;
  }

  /** `f"{h:02d}:{m:02d}"`, as the sleep form stores times. */
  function FormatClock(h: nat, m: nat): string
    requires h < 100 && m < 100
  {
    Pad2(h) + ":" + Pad2(m)
  }

  /** `h, m = map(int, bt.split(":")); h * 60 + m`, with every failure (no
      bedtime at all, not exactly two pieces, a piece that is not a number)
      reported as `None`, as the program's bare `except` skips it. */
  function ParseClock(bt: Option<string>): (r: Option<int>)
    ensures bt.None? ==> r.None?
    ensures bt.Some? && ':' !in bt.value ==> r.None?
    ensures r.Some? ==>
      var parts := Split(bt.value);
      |parts| == 2 && bt.value == parts[0] + ":" + parts[1] && ':' !in parts[0] && ':' !in parts[1] &&
      ParseInt(parts[0]).Some? && ParseInt(parts[1]).Some? &&
      r.value == ParseInt(parts[0]).value * 60 + ParseInt(parts[1]).value
  {
    match bt
    case None => None
    case Some(t) =>
      var parts := Split(t);
      if ':' !in t then SplitNoColon(t); None
      else if |parts| != 2 then None
      else
        match (ParseInt(parts[0]), ParseInt(parts[1]))
        case (Some(h), Some(m)) =>
          assert Join(parts) == parts[0] + ":" + parts[1] by {
            assert Join(parts[1..]) == parts[1];
          }
          Some(h * 60 + m)
        case _ => None
  }

  /** A bedtime made of two colon-free pieces parses exactly when both
      pieces are numbers, to hours times 60 plus minutes. */
  lemma ParseClockOfParts(a: string, b: string)
    requires ':' !in a && ':' !in b
    ensures ParseClock(Some(a + ":" + b)) ==
      if ParseInt(a).Some? && ParseInt(b).Some? then Some(ParseInt(a).value * 60 + ParseInt(b).value) else None
  {
    SplitTwo(a, b);
    assert ':' in a + ":" + b by {
      assert (a + ":" + b)[|a|] == ':';
    }
  }

  /** Parsing reads back what the form wrote. */
  lemma ClockRoundTrip(h: nat, m: nat)
    requires h < 100 && m < 100
    ensures ParseClock(Some(FormatClock(h, m))) == Some(h * 60 + m)
  {
    var a, b := Pad2(h), Pad2(m);
    assert ':' !in a && ':' !in b by {
      assert a[0] != ':' && a[1] != ':' && b[0] != ':' && b[1] != ':';
    }
    SplitTwo(a, b);
    Pad2Value(h);
    Pad2Value(m);
  }

  /** Bedtimes after noon count as negative minutes, so that times around
      midnight lie close together. */
  function WrapNoon(t: int): int {
    if t > 720 then t - 1440 else t
  }

  /** A bedtime that parses. */
  predicate Parses(bt: Option<string>) {
    ParseClock(bt).Some?
  }

  /** The wrapped minute values of the bedtimes that parse, in order; the
      others are skipped. */
  function ParsedBedtimes(recent: seq<Option<string>>): (r: seq<int>)
    ensures |r| == Count(Parses, recent)
    ensures |r| <= |recent|
    ensures forall k :: 0 <= k < |r| ==> r[k] == WrapNoon(ParseClock(Filter(Parses, recent)[k]).value)
  {
    if |recent| == 0 then []
    else
      match ParseClock(recent[0])
      case Some(t) => [WrapNoon(t)] + ParsedBedtimes(recent[1..])
      case None => ParsedBedtimes(recent[1..])
  }

  /** Clock times of a day wrap into the half-open window (-720, 720]. */
  lemma WrappedClockRange(h: nat, m: nat)
    requires h < 24 && m < 60
    ensures var t := WrapNoon(h * 60 + m); -720 < t <= 720
  {
  }

  function Sum(xs: seq<int>): int {
    if |xs| == 0 then 0 else xs[0] + Sum(xs[1..])
  }

  /** The sum of squared distances of `xs` from `c`. */
  function SquaredDeviation(xs: seq<int>, c: real): (r: real)
    ensures r >= 0.0
  {
    if |xs| == 0 then 0.0 else (xs[0] as real - c) * (xs[0] as real - c) + SquaredDeviation(xs[1..], c)
  }

  function Mean(xs: seq<int>): real
    requires |xs| > 0
  {
    Sum(xs) as real / |xs| as real
  }

  /** The population variance of the sample. */
  function Variance(xs: seq<int>): (r: real)
    requires |xs| > 0
    ensures r >= 0.0
  {
    SquaredDeviation(xs, Mean(xs)) / |xs| as real
  }

  /** The facts `stdDev` must satisfy: it is the square root of the
      variance of the parsed bedtimes whenever that variance is used. */
  ghost predicate IsStdDev(recent: seq<Option<string>>, stdDev: real) {
    stdDev >= 0.0 &&
    (|ParsedBedtimes(recent)| >= 3 ==> stdDev * stdDev == Variance(ParsedBedtimes(recent)))
  }

  /** The consistency term: 10 unless at least three bedtimes parse, and
      otherwise `max(0, 20 - stddev / 6)`. */
  function ConsistencyTerm(recent: seq<Option<string>>, stdDev: real): (r: real)
    requires IsStdDev(recent, stdDev)
    ensures 0.0 <= r <= 20.0
    ensures |ParsedBedtimes(recent)| < 3 ==> r == 10.0
    ensures |ParsedBedtimes(recent)| >= 3 && stdDev <= 120.0 ==> r == 20.0 - stdDev / 6.0
    ensures |ParsedBedtimes(recent)| >= 3 && stdDev >= 120.0 ==> r == 0.0
  {
    var mins := ParsedBedtimes(recent);
    if |recent| >= 3 && |mins| >= 3 then
      (if 20.0 - stdDev / 6.0 > 0.0 then 20.0 - stdDev / 6.0 else 0.0)
    else 10.0
  }

  /** `min(quality, 5) * 8`. */
  function QualityTerm(quality: int): (r: int)
    ensures r <= 40
    ensures 1 <= quality <= 5 ==> 8 <= r <= 40
  {
    (if quality < 5 then quality else 5) * 8
  }

  /** Each rating step below 5 is worth 8 points, from 0 for a rating of
      0; every rating from 5 up is worth the full 40. */
  lemma QualityTermStep(q: int)
    ensures QualityTerm(0) == 0
    ensures q < 5 ==> QualityTerm(q + 1) == QualityTerm(q) + 8
    ensures q >= 5 ==> QualityTerm(q) == 40
  {
  }

  /** `int(min(100, max(0, total)))`. */
  function ClampToScore(total: real): (r: int)
    ensures 0 <= r <= 100
    ensures 0.0 <= total <= 100.0 ==> r == total.Floor
    ensures total < 0.0 ==> r == 0
    ensures total >= 100.0 ==> r == 100
  {
    var c := if total < 0.0 then 0.0 else if total > 100.0 then 100.0 else total;
    c.Floor
  }

  /** `calc_sleep_score`. `durationTerm` is `40 * exp(-0.5 * ((dur - 480) / 90) ** 2)`,
      which lies in [0, 40]. */
  function SleepScore(durationTerm: real, quality: int, recent: seq<Option<string>>, stdDev: real): (r: int)
    requires 0.0 <= durationTerm <= 40.0
    requires IsStdDev(recent, stdDev)
    ensures 0 <= r <= 100
    ensures quality >= 0 ==>
      r == (durationTerm + QualityTerm(quality) as real + ConsistencyTerm(recent, stdDev)).Floor
  {
    ClampToScore(durationTerm + QualityTerm(quality) as real + ConsistencyTerm(recent, stdDev))
  }

  /** Eight hours of excellent sleep with no bedtime history scores
      40 + 40 + 10. */
  lemma IdealNightWithoutHistory(stdDev: real)
    requires stdDev >= 0.0
    ensures SleepScore(40.0, 5, [], stdDev) == 90
  {
  }

  /** A better quality rating never lowers the score. */
  lemma ScoreMonotoneInQuality(durationTerm: real, q1: int, q2: int, recent: seq<Option<string>>, stdDev: real)
    requires 0.0 <= durationTerm <= 40.0
    requires IsStdDev(recent, stdDev)
    requires q1 <= q2
    ensures SleepScore(durationTerm, q1, recent, stdDev) <= SleepScore(durationTerm, q2, recent, stdDev)
  {
    assert QualityTerm(q1) <= QualityTerm(q2);
  }

  lemma {:induction false} SumConstant(xs: seq<int>, c: int)
    requires forall i :: 0 <= i < |xs| ==> xs[i] == c
    ensures Sum(xs) == |xs| * c
  {
    if |xs| > 0 {
      SumConstant(xs[1..], c);
    }
  }

  lemma {:induction false} SquaredDeviationAtConstant(xs: seq<int>, c: int)
    requires forall i :: 0 <= i < |xs| ==> xs[i] == c
    ensures SquaredDeviation(xs, c as real) == 0.0
  {
    if |xs| > 0 {
      SquaredDeviationAtConstant(xs[1..], c);
    }
  }

  /** Going to bed at the same time every night gives a variance of zero,
      hence a standard deviation of zero and the full 20. */
  lemma SameBedtimeFullConsistency(recent: seq<Option<string>>, c: int)
    requires |ParsedBedtimes(recent)| >= 3
    requires forall i :: 0 <= i < |ParsedBedtimes(recent)| ==> ParsedBedtimes(recent)[i] == c
    ensures Variance(ParsedBedtimes(recent)) == 0.0
    ensures IsStdDev(recent, 0.0) && ConsistencyTerm(recent, 0.0) == 20.0
  {
    ConstantSampleHasNoVariance(ParsedBedtimes(recent), c);
  }

  /** A sample of identical values has variance zero. */
  lemma ConstantSampleHasNoVariance(xs: seq<int>, c: int)
    requires |xs| > 0
    requires forall i :: 0 <= i < |xs| ==> xs[i] == c
    ensures Variance(xs) == 0.0
  {
    MeanOfConstant(xs, c);
    SquaredDeviationAtConstant(xs, c);
  }

  lemma MeanOfConstant(xs: seq<int>, c: int)
    requires |xs| > 0
    requires forall i :: 0 <= i < |xs| ==> xs[i] == c
    ensures Mean(xs) == c as real
  {
    SumConstant(xs, c);
    var n := |xs| as real;
    assert Sum(xs) as real == n * c as real;
    assert (n * c as real) / n == c as real;
  }
}

=== FILE: seqs.dfy ===
/** Generic sequence operations behind the list comprehensions and index
    scans of the tracker, and one fact about finite sets. */
module Seqs {
  import opened Wrappers

  /** `a` can be obtained from `b` by deleting elements: the order of the
      kept elements is the order they had in `b`. */
  ghost predicate IsSubseq<T>(a: seq<T>, b: seq<T>)
    decreases |b|
  {
    |a| == 0 || (|b| > 0 && ((a[0] == b[0] && IsSubseq(a[1..], b[1..])) || IsSubseq(a, b[1..])))
  }

  /** Number of elements of `s` that satisfy `p`. */
  function Count<T>(p: T -> bool, s: seq<T>): nat
  {
    if |s| == 0 then 0 else (if p(s[0]) then 1 else 0) + Count(p, s[1..])
  }

  /** `[x for x in s if p(x)]`. The three ensures together pin the result
      down: an order-preserving selection of exactly the elements that
      satisfy `p`. */
  function Filter<T>(p: T -> bool, s: seq<T>): (r: seq<T>)
    ensures forall i :: 0 <= i < |r| ==> r[i] in s && p(r[i])
    ensures forall i :: 0 <= i < |s| && p(s[i]) ==> s[i] in r
    ensures IsSubseq(r, s)
    ensures |r| == Count(p, s)
  {
    if |s| == 0 then []
    else if p(s[0]) then
      var rest := Filter(p, s[1..]);
      assert ([s[0]] + rest)[1..] == rest;
      [s[0]] + rest
    else Filter(p, s[1..])
  }

  /** Index of the first element satisfying `p` (a front-to-back scan that
      stops at the first hit). */
  function FirstIndex<T>(p: T -> bool, s: seq<T>): (r: Option<nat>)
    ensures r.Some? ==> r.value < |s| && p(s[r.value])
    ensures r.Some? ==> forall j :: 0 <= j < r.value ==> !p(s[j])
    ensures r.None? <==> forall j :: 0 <= j < |s| ==> !p(s[j])
  {
    if |s| == 0 then None
    else if p(s[0]) then Some(0)
    else
      match FirstIndex(p, s[1..])
      case None => None
      case Some(i) => Some(i + 1)
  }

  /** Index of the last element satisfying `p` (a back-to-front scan that
      stops at the first hit). */
  function LastIndex<T>(p: T -> bool, s: seq<T>): (r: Option<nat>)
    ensures r.Some? ==> r.value < |s| && p(s[r.value])
    ensures r.Some? ==> forall j :: r.value < j < |s| ==> !p(s[j])
    ensures r.None? <==> forall j :: 0 <= j < |s| ==> !p(s[j])
  {
    if |s| == 0 then None
    else if p(s[|s| - 1]) then Some(|s| - 1)
    else LastIndex(p, s[..|s| - 1])
  }

  /** `s.pop(i)`: everything but position `i`, in order. */
  function RemoveAt<T>(s: seq<T>, i: nat): (r: seq<T>)
    requires i < |s|
    ensures |r| == |s| - 1
    ensures forall j :: 0 <= j < i ==> r[j] == s[j]
    ensures forall j :: i <= j < |r| ==> r[j] == s[j + 1]
    ensures multiset(r) + multiset{s[i]} == multiset(s)
  {
    assert s == s[..i] + [s[i]] + s[i + 1..];
    s[..i] + s[i + 1..]
  }

  /** Elements that fail `p` are the ones that satisfy its complement. */
  lemma {:induction false} CountComplement<T>(p: T -> bool, q: T -> bool, s: seq<T>)
    requires forall x :: p(x) == !q(x)
    ensures Count(p, s) == |s| - Count(q, s)
  {
    if |s| > 0 {
      CountComplement(p, q, s[1..]);
    }
  }

  /** Some element satisfies `p` exactly when the count is positive. */
  lemma {:induction false} CountPositive<T>(p: T -> bool, s: seq<T>)
    ensures Count(p, s) > 0 <==> exists i :: 0 <= i < |s| && p(s[i])
  {
    if |s| > 0 {
      CountPositive(p, s[1..]);
      if exists i :: 0 <= i < |s[1..]| && p(s[1..][i]) {
        var i :| 0 <= i < |s[1..]| && p(s[1..][i]);
        assert p(s[i + 1]);
      }
      if exists i :: 0 <= i < |s| && p(s[i]) {
        var i :| 0 <= i < |s| && p(s[i]);
        if i > 0 {
          assert p(s[1..][i - 1]);
        }
      }
    }
  }

  /** The first index is determined by its characterisation: replacing an
      element by one that `p` judges the same way does not move it. */
  lemma FirstIndexUpdate<T>(p: T -> bool, s: seq<T>, i: nat, x: T)
    requires i < |s| && p(x) == p(s[i])
    ensures FirstIndex(p, s[i := x]) == FirstIndex(p, s)
  {
    var s' := s[i := x];
    assert forall j :: 0 <= j < |s| ==> p(s'[j]) == p(s[j]);
  }

  /** A subset is no larger, and equally large only when it is the whole set. */
  lemma SubsetCardinality<T>(a: set<T>, b: set<T>)
    requires a <= b
    ensures |a| <= |b|
    ensures |a| == |b| ==> a == b
  {
    assert b == a + (b - a);
    if |a| == |b| {
      assert |b - a| == 0;
    }
  }
}

=== FILE: sleepform.dfy ===
/** The "Log Sleep" form handler: computes the duration from the chosen
    times, refuses sleeps over 18 hours, scores the night against the
    bedtimes of the last week, and upserts the entry. */
module SleepForm {
  import opened Wrappers
  import opened Seqs
  import opened Records
  import opened SleepLog
  import opened Score

  /** The bedtimes the score is compared against cover this many days. */
  const RecentDays: int := 7

  /** A window day that has a sleep entry. */
  predicate IsLogged(day: (Day, Option<SleepEntry>)) {
    day.1.Some?
  }

  /** Bedtimes of the entries in a `(day, entry-or-absent)` window, in
      window order; days without an entry contribute nothing. */
  function BedtimesOf(window: seq<(Day, Option<SleepEntry>)>): (r: seq<Option<string>>)
    ensures |r| == |Filter(IsLogged, window)| <= |window|
    ensures forall k :: 0 <= k < |r| ==> r[k] == Filter(IsLogged, window)[k].1.value.bedtime
  {
    if |window| == 0 then []
    else
      var rest := BedtimesOf(window[1..]);
      match window[0].1
      case None =>
        assert Filter(IsLogged, window) == Filter(IsLogged, window[1..]);
        rest
      case Some(e) =>
        assert Filter(IsLogged, window) == [window[0]] + Filter(IsLogged, window[1..]);
        [e.bedtime] + rest
  }

  /** `[s.get("bedtime") for _, s in sleep_for_range(7) if s]`. */
  function RecentBedtimes(sleep: seq<SleepEntry>, today: Day): (r: seq<Option<string>>)
    ensures |r| <= RecentDays
  {
    BedtimesOf(SleepForRange(sleep, today, RecentDays))
  }

  datatype FormError = InvalidTimes

  /** `SleepPage._log`: the hour and minute pickers give `bedH:bedM` and
      `wakeH:wakeM`; `date` is the date field, `today` and `now` the clock,
      `durationTerm` the Gaussian duration term and `stdDev` the standard
      deviation of the recent bedtimes. */
  function RecordSleep(s: Store, date: Day, bedH: nat, bedM: nat, wakeH: nat, wakeM: nat,
                       quality: int, factors: seq<string>, notes: string,
                       durationTerm: real, stdDev: real, today: Day, now: string): (r: Result<Store, FormError>)
    requires bedH < 24 && bedM < 60 && wakeH < 24 && wakeM < 60
    requires 0.0 <= durationTerm <= 40.0
    requires IsStdDev(RecentBedtimes(s.sleep, today), stdDev)
    ensures r.Failure? <==> SleepDuration(bedH * 60 + bedM, wakeH * 60 + wakeM) > MaxSleepMinutes
    ensures r.Success? ==> r.value.meds == s.meds && r.value.log == s.log
    ensures r.Success? ==>
      var e := GetSleep(r.value.sleep, date);
      e.Some? && e.value.date == date &&
      e.value.durationMin == SleepDuration(bedH * 60 + bedM, wakeH * 60 + wakeM) &&
      0 < e.value.durationMin <= MaxSleepMinutes &&
      e.value.bedtime == Some(FormatClock(bedH, bedM)) && e.value.waketime == Some(FormatClock(wakeH, wakeM)) &&
      e.value.quality == quality && e.value.factors == factors && e.value.notes == notes &&
      e.value.score == SleepScore(durationTerm, quality, RecentBedtimes(s.sleep, today), stdDev) &&
      0 <= e.value.score <= 100 && e.value.loggedAt == Some(now)
    ensures r.Success? ==> forall d :: d != date ==> GetSleep(r.value.sleep, d) == GetSleep(s.sleep, d)
    ensures r.Success? && DatesUnique(s.sleep) ==> DatesUnique(r.value.sleep)
    ensures r.Success? ==>
      r.value.sleep == LogSleep(s.sleep,
        SleepEntry(date, Some(FormatClock(bedH, bedM)), Some(FormatClock(wakeH, wakeM)),
                   SleepDuration(bedH * 60 + bedM, wakeH * 60 + wakeM), quality, factors, notes,
                   SleepScore(durationTerm, quality, RecentBedtimes(s.sleep, today), stdDev), None),
        now)
  {
    var bed := bedH * 60 + bedM;
    var wake := wakeH * 60 + wakeM;
    var dur := if wake > bed then wake - bed else DayMinutes - bed + wake;
    if dur <= 0 || dur > MaxSleepMinutes then Failure(InvalidTimes)
    else
      var score := SleepScore(durationTerm, quality, RecentBedtimes(s.sleep, today), stdDev);
      var entry := SleepEntry(date, Some(FormatClock(bedH, bedM)), Some(FormatClock(wakeH, wakeM)),
                              dur, quality, factors, notes, score, None);
      var sleep := LogSleep(s.sleep, entry, now);
      LogSleepThenGet(s.sleep, entry, now);
      assert forall d :: d != date ==> GetSleep(sleep, d) == GetSleep(s.sleep, d) by {
        forall d | d != date
          ensures GetSleep(sleep, d) == GetSleep(s.sleep, d)
        {
          LogSleepKeepsOtherDays(s.sleep, entry, now, d);
        }
      }
      assert DatesUnique(s.sleep) ==> DatesUnique(sleep) by {
        if DatesUnique(s.sleep) {
          LogSleepKeepsDatesUnique(s.sleep, entry, now);
        }
      }
      Success(s.(sleep := sleep))
  }
}

=== FILE: sleeplog.dfy ===
/** The sleep log: one entry per date (upsert), exact-date lookup, the
    window of days ending today, and the duration rule of the sleep form. */
module SleepLog {
  import opened Wrappers
  import opened Seqs
  import opened Records

  /** Minutes in a day. */
  const DayMinutes: int := 1440

  /** Longest sleep the form accepts, in minutes (18 hours). */
  const MaxSleepMinutes: int := 1080

  /** `get_sleep`: the first entry for day `d`, scanning in log order. */
  function GetSleep(sleep: seq<SleepEntry>, d: Day): (r: Option<SleepEntry>)
    ensures r.Some? ==> r.value in sleep && r.value.date == d
    ensures r.None? <==> forall i :: 0 <= i < |sleep| ==> sleep[i].date != d
    ensures r.Some? ==> exists i :: 0 <= i < |sleep| && sleep[i] == r.value && forall j :: 0 <= j < i ==> sleep[j].date != d
  {
    if |sleep| == 0 then None
    else if sleep[0].date == d then Some(sleep[0])
    else
      var rest := GetSleep(sleep[1..], d);
      assert rest.Some? ==> exists i :: 0 <= i < |sleep| && sleep[i] == rest.value && forall j :: 0 <= j < i ==> sleep[j].date != d by {
        if rest.Some? {
          var k :| 0 <= k < |sleep[1..]| && sleep[1..][k] == rest.value && forall j :: 0 <= j < k ==> sleep[1..][j].date != d;
          assert sleep[k + 1] == rest.value;
          assert forall j :: 0 <= j < k + 1 ==> sleep[j].date != d by {
            forall j | 0 <= j < k + 1
              ensures sleep[j].date != d
            {
              if j > 0 {
                assert sleep[j] == sleep[1..][j - 1];
              }
            }
          }
        }
      }
      rest
  }

  /** Some entry exists for day `d` (the truth value of `get_sleep(d)`). */
  predicate HasSleepOn(sleep: seq<SleepEntry>, d: Day) {
    GetSleep(sleep, d).Some?
  }

  /** No two entries share a date. */
  ghost predicate DatesUnique(sleep: seq<SleepEntry>) {
    forall i, j :: 0 <= i < j < |sleep| ==> sleep[i].date != sleep[j].date
  }

  /** `entry.setdefault("logged_at", now)`. */
  function Stamped(entry: SleepEntry, now: string): SleepEntry {
    if entry.loggedAt.Some? then entry else entry.(loggedAt := Some(now))
  }

  /** `log_sleep`: drops every entry with the new entry's date, then appends
      the new entry (stamped with `now` unless it carries a timestamp). */
  function LogSleep(sleep: seq<SleepEntry>, entry: SleepEntry, now: string): (r: seq<SleepEntry>)
    ensures |r| > 0
    ensures r[|r| - 1].loggedAt.Some? && r[|r| - 1].(loggedAt := entry.loggedAt) == entry
    ensures entry.loggedAt.Some? ==> r[|r| - 1] == entry
    ensures forall i :: 0 <= i < |r| - 1 ==> r[i].date != entry.date
    ensures forall i :: 0 <= i < |r| - 1 ==> r[i] in sleep
    ensures forall i :: 0 <= i < |sleep| && sleep[i].date != entry.date ==> sleep[i] in r
    ensures IsSubseq(r[..|r| - 1], sleep)
    ensures |r| - 1 == |sleep| - Count((e: SleepEntry) => e.date == entry.date, sleep)
  {
    var keep := (e: SleepEntry) => e.date != entry.date;
    CountComplement(keep, (e: SleepEntry) => e.date == entry.date, sleep);
    var kept := Filter(keep, sleep);
    var r := kept + [Stamped(entry, now)];
    assert r[..|r| - 1] == kept;
    r
  }

  /** `sleep_for_range`: one `(day, entry-or-absent)` pair for each of the
      last `days` days, oldest first, ending with `today`. */
  function SleepForRange(sleep: seq<SleepEntry>, today: Day, days: int): (r: seq<(Day, Option<SleepEntry>)>)
    ensures |r| == if days > 0 then days else 0
    ensures forall k :: 0 <= k < |r| ==> r[k].0 == today - (|r| - 1 - k)
    ensures forall k :: 0 <= k < |r| ==> r[k].1 == GetSleep(sleep, r[k].0)
    decreases days
  {
    if days <= 0 then []
    else SleepForRange(sleep, today - 1, days - 1) + [(today, GetSleep(sleep, today))]
  }

  /** The duration rule of the sleep form: minutes from bedtime to wake time,
      wrapping past midnight when wake time is not after bedtime. The result
      is the time the clock needs to get from `bed` to `wake`. */
  function SleepDuration(bed: int, wake: int): (r: int)
    requires 0 <= bed < DayMinutes && 0 <= wake < DayMinutes
    ensures 1 <= r <= DayMinutes
    ensures (bed + r) % DayMinutes == wake
  {
    if wake > bed then wake - bed else DayMinutes - bed + wake
  }

  /** The duration is the least positive amount that does this. */
  lemma DurationIsLeast(bed: int, wake: int, k: int)
    requires 0 <= bed < DayMinutes && 0 <= wake < DayMinutes
    requires 1 <= k < SleepDuration(bed, wake)
    ensures (bed + k) % DayMinutes != wake
  {
    if bed + k >= DayMinutes {
      assert (bed + k) % DayMinutes == bed + k - DayMinutes;
    }
  }

  /** A lookup in a log extended at the end finds an earlier entry first. */
  lemma {:induction false} GetSleepAppend(a: seq<SleepEntry>, x: SleepEntry, d: Day)
    ensures GetSleep(a + [x], d) ==
      (if GetSleep(a, d).Some? then GetSleep(a, d) else if x.date == d then Some(x) else None)
  {
    if |a| == 0 {
      assert a + [x] == [x];
    } else {
      assert (a + [x])[1..] == a[1..] + [x];
      GetSleepAppend(a[1..], x, d);
    }
  }

  /** Dropping the entries of one date does not change what another date
      looks up, even when the log holds duplicates. */
  lemma {:induction false} GetSleepWithoutDate(sleep: seq<SleepEntry>, gone: Day, d: Day)
    requires d != gone
    ensures GetSleep(Filter((e: SleepEntry) => e.date != gone, sleep), d) == GetSleep(sleep, d)
  {
    var keep := (e: SleepEntry) => e.date != gone;
    if |sleep| > 0 {
      GetSleepWithoutDate(sleep[1..], gone, d);
      if keep(sleep[0]) {
        var rest := Filter(keep, sleep[1..]);
        assert Filter(keep, sleep) == [sleep[0]] + rest;
        assert ([sleep[0]] + rest)[1..] == rest;
      }
    }
  }

  /** After logging, the entry's date looks up exactly the logged entry. */
  lemma LogSleepThenGet(sleep: seq<SleepEntry>, entry: SleepEntry, now: string)
    ensures GetSleep(LogSleep(sleep, entry, now), entry.date) == Some(Stamped(entry, now))
  {
    var kept := Filter((e: SleepEntry) => e.date != entry.date, sleep);
    GetSleepAppend(kept, Stamped(entry, now), entry.date);
  }

  /** Logging one date leaves the lookup of every other date unchanged. */
  lemma LogSleepKeepsOtherDays(sleep: seq<SleepEntry>, entry: SleepEntry, now: string, d: Day)
    requires d != entry.date
    ensures GetSleep(LogSleep(sleep, entry, now), d) == GetSleep(sleep, d)
  {
    var kept := Filter((e: SleepEntry) => e.date != entry.date, sleep);
    GetSleepAppend(kept, Stamped(entry, now), d);
    GetSleepWithoutDate(sleep, entry.date, d);
  }

  /** Upserting keeps the one-entry-per-date invariant. */
  lemma LogSleepKeepsDatesUnique(sleep: seq<SleepEntry>, entry: SleepEntry, now: string)
    requires DatesUnique(sleep)
    ensures DatesUnique(LogSleep(sleep, entry, now))
  {
    var keep := (e: SleepEntry) => e.date != entry.date;
    var kept := Filter(keep, sleep);
    FilterKeepsDatesUnique(keep, sleep);
    var r := LogSleep(sleep, entry, now);
    assert r == kept + [Stamped(entry, now)];
  }

  /** A filtered log inherits unique dates. */
  lemma {:induction false} FilterKeepsDatesUnique(p: SleepEntry -> bool, sleep: seq<SleepEntry>)
    requires DatesUnique(sleep)
    ensures DatesUnique(Filter(p, sleep))
  {
    if |sleep| > 0 {
      var rest := Filter(p, sleep[1..]);
      assert DatesUnique(sleep[1..]) by {
        forall i, j | 0 <= i < j < |sleep| - 1
          ensures sleep[1..][i].date != sleep[1..][j].date
        {
          assert sleep[1..][i] == sleep[i + 1] && sleep[1..][j] == sleep[j + 1];
        }
      }
      FilterKeepsDatesUnique(p, sleep[1..]);
      if p(sleep[0]) {
        var r := [sleep[0]] + rest;
        assert Filter(p, sleep) == r;
        forall i, j | 0 <= i < j < |r|
          ensures r[i].date != r[j].date
        {
          if i == 0 {
            var k :| 0 <= k < |sleep[1..]| && sleep[1..][k] == r[j];
            assert sleep[k + 1] == r[j];
          } else {
            assert r[i] == rest[i - 1] && r[j] == rest[j - 1];
          }
        }
      }
    }
  }
}

=== FILE: wrappers.dfy ===
/** Optional values and success/failure results, standing in for Python's
    `None` and for the error dialogs the program shows instead of raising. */
module Wrappers {

  /** A value that may be absent: a dict key that is missing (or holds `None`). */
  datatype Option<+T> = None | Some(value: T) {

    /** The value, or `default` when absent: Python's `d.get(key, default)`. */
    function GetOr(default: T): T {
      match this
      case Some(v) => v
      case None => default
    }
  }

  /** Either the value an operation produced or the reason it was refused. */
  datatype Result<+R, +E> = Success(value: R) | Failure(error: E)
}
